=== FILE: README.md ===
# Tab grouper: a Dafny model of the popup and the classification worker

This project models the logic of a browser extension that sorts the tabs of a window into
named tab groups with a zero-shot text classifier, and that gathers duplicate tabs.

- **Labels** (`labels.dfy`): `getLabels`. The user's comma-separated labels are split,
  trimmed and filtered. They are merged with the titles of the browser's existing tab groups,
  with repeats removed. The seven default labels are used when nothing is left. When the host
  lookup throws, the user's labels are used alone.
- **Duplicates** (`duplicates.dfy`): `findDuplicateTabs`. A tab is a duplicate when an
  earlier tab has the same normalised URL. The `Duplicates` group holds these tabs.
- **Grouping** (`grouping.dfy`, `popup_grouping.dfy`): the popup's classification loop.
  `chrome://` tabs are skipped. Every other tab is classified on `title url`. It is then
  pushed, in order, under its top label; the group is created the first time the label
  appears. The first exception the classifier throws ends the loop.
- **Apply** (`apply_groups.dfy`): `applyGroups`. Each edited group name is trimmed. A blank
  name falls back to the original. The renamed object is then committed, one tab-group call
  and one title call per non-empty group. Finally the status line is rendered.
- **Worker** (`worker.dfy`): the worker's message handler. It loads the classifier once and
  caches it. It posts the loading and download progress, then classifies every tab on
  `title || url || 'Untitled'` and posts `Classified i/n tabs` after each. It ends with exactly
  one `complete` message (carrying the groups of `{id, title}` records) or one `error` message.

Supporting modules:

- `wrappers.dfy`: `Option` and `Result`.
- `seqs.dfy`: duplicate-free sequences. `Dedup` models `[...new Set(xs)]` and keeps first-seen
  order.
- `text.dfy`: ECMAScript `trim`, `split` and `join`, and decimal rendering of naturals.
- `assoc_list.dfy`: JavaScript plain objects as insertion-ordered association lists.
  Assigning to an existing key keeps its position.
- `tabs.dfy`: the tab record and the classifier interface.

The classifier, the URL normaliser and the outcome of loading the model are parameters. A
classifier maps a text and the candidate labels to the top label, or to the message of the
exception it throws.

## Model

| member | source | states |
|---|---|---|
| Labels.GetLabelsSpec | popup.js:11-25 | The label list is never empty and holds no empty label. It has no repeats whenever the host lookup succeeded. Every label is a user label, an existing group title or a default label. |
| Labels.GetLabelsMerged | popup.js:13-21 | After a successful host lookup the labels are the user labels followed by the group titles, with repeats removed. The user labels come first in their own order. Every user label and every non-empty title is present. |
| Labels.GetLabelsDefault | popup.js:21-23 | When the input is blank pieces and commas, and no existing group has a title, both paths return the seven default labels. |
| Labels.GetLabelsHostFailed | popup.js:22-23 | When the host lookup throws, the result is the user labels, or the defaults when there are none; each user label is trimmed. |
| Labels.GetLabelsHostFailedKeepsRepeats | popup.js:13 | On the exception path, the input `a,a` yields `["a", "a"]`, a list with a repeat: only the merge path removes repeats. |
| Labels.CustomLabelsSpec | popup.js:13 | Each user label is a non-empty, trimmed piece of the input split on commas. Every piece that is not all whitespace gives a label, its trimmed form. |
| Labels.NonEmptySpec | popup.js:18 | Filtering drops exactly the empty strings and keeps every non-empty one; the result is empty iff every input string is. |
| Labels.NonEmptyAppend | popup.js:13 | Filtering distributes over concatenation, so it keeps the order of the strings it keeps. |
| Labels.NonEmptyKeepsAll | popup.js:18 | Strings that are all non-empty pass the filter unchanged, repeats included. |
| Labels.GetLabelsDedupedSpec | popup.js:20-23 | With repeats also removed on the exception path, the labels are never empty, hold no empty label and have no repeats on every path. This corrected variant equals `getLabels` when the host lookup succeeds. |
| Labels.DefaultLabelsWellFormed | popup.js:1 | There are seven default labels, all distinct and non-empty. |
| Seqs.Dedup | popup.js:20 | Removing repeats gives a repeat-free sequence with exactly the elements of the input, no longer than it. |
| Seqs.DedupFirstSeenOrder | popup.js:20 | Repeat removal keeps each element's first occurrence, in the order of first occurrence (the iteration order of a `Set`). |
| Seqs.DedupPrefix | popup.js:20 | Deduplicating `xs + ys` starts with the deduplication of `xs`, so user labels precede host titles. |
| Seqs.DedupOfNoDups | popup.js:20 | A repeat-free sequence is unchanged by repeat removal. |
| Text.Trim | popup.js:13 | A trimmed string has no leading or trailing whitespace; it is empty iff the input is all whitespace. |
| Text.TrimPadded | popup.js:13 | Trimming removes exactly the whitespace padding around a trimmed core. |
| Text.TrimIdempotent | popup.js:85 | Trimming twice is trimming once. |
| Text.JoinSplit | popup.js:13 | Joining the pieces of a split with the separator gives back the input. |
| Text.SplitJoin | popup.js:13 | Splitting a join of separator-free pieces gives back the pieces. |
| Text.ParseNatToString | popup.js:99 | Reading back a rendered count gives the count. |
| Text.NatToStringInjective | worker.js:52 | Distinct counts render as distinct digit strings. |
| Duplicates.FindDuplicateTabs | popup.js:115-132 | The loop over the tabs with a set of seen URLs returns exactly the tabs whose normalised URL occurs at an earlier position, in tab order. |
| Duplicates.DuplicatesAreLaterOccurrences | popup.js:120-129 | The duplicates are the tabs at an increasing list of positions. A position is in the list iff an earlier tab has the same normalised URL. |
| Duplicates.UrlSetSpec | popup.js:121-127 | The seen set holds exactly the normalised URLs of the tabs visited. |
| Duplicates.DuplicatesCount | popup.js:120-129 | Every tab is either the first with its URL (and grows the seen set) or a duplicate. |
| Duplicates.DistinctUrlsNoDuplicates | popup.js:122 | Tabs with pairwise distinct normalised URLs have no duplicates. |
| Duplicates.FiveTabExample | popup.js:119-129 | Among tabs A, B, A, C, B, the duplicates are the second A and the second B, in that order. |
| Duplicates.DuplicatesOfDuplicates | popup.js:120-129 | Running the detection again on its own output is not empty when a URL occurs three times. |
| Duplicates.DuplicateGroups | popup.js:175-182 | There is no group when nothing is duplicated. Otherwise there is one group, `Duplicates`, holding the duplicates. |
| PopupGrouping.GroupTabsFailure | popup.js:146-151 | The loop fails iff the classifier throws on some tab that is not a `chrome://` tab. |
| PopupGrouping.GroupTabsShape | popup.js:145-157 | On success the group names are distinct and no group is empty. The groups hold one entry per non-`chrome://` tab. |
| PopupGrouping.GroupTabsMembers | popup.js:150-156 | A group exists iff some tab's top label is its name. It holds exactly those tabs, in tab order. |
| PopupGrouping.GroupTabsCovers | popup.js:146-156 | Every non-`chrome://` tab is classified and is in the group of its top label. |
| PopupGrouping.GroupTabsSound | popup.js:146-156 | Every tab in a group is a non-`chrome://` tab of the window. The classifier's top label for it is the group's name. |
| PopupGrouping.PlacedCount | popup.js:147 | Without a failure, one tab is placed per tab that is not a `chrome://` tab. |
| PopupGrouping.NonInternal | popup.js:147 | The tabs kept by the loop are exactly those whose URL does not start with `chrome://`. |
| Grouping.GroupIntoFailure | popup.js:145-157 | The shared loop fails iff some item's decision is a failure. |
| Grouping.GroupIntoFirstFailure | worker.js:40-57 | The failure carries the message of the first failing item. |
| Grouping.GroupIntoKeys | popup.js:153-155 | The group names are distinct and in the order in which their labels first appear. |
| Grouping.GroupIntoTotal | popup.js:156 | The groups hold one record per placed item. |
| Grouping.GroupIntoLookup | popup.js:153-156 | A name maps to the records of the items placed under it, in order, and is absent when no item is placed there. |
| Grouping.GroupIntoNoEmptyGroup | popup.js:153-156 | A group is created only together with its first record, so no group is empty. |
| Grouping.MembersSpec | popup.js:156 | The records under a name are exactly those of the items placed under it. |
| AssocList.PushIsAssignment | popup.js:153-156 | Pushing a record under a key is the same as assigning the key its old list (or `[]`) extended by the record. |
| AssocList.PushSpec | worker.js:47-50 | A push adds the key at the end when it is new, extends only that key's list, and leaves every other key unchanged. |
| AssocList.PutSpec | popup.js:86 | Assigning a key adds it at the end when it is new and otherwise keeps its position. The key maps to the new value; other keys are unchanged. |
| AssocList.PutUniqueKeys | popup.js:86 | Assignment keeps keys distinct. |
| ApplyGroups.EditableNames | popup.js:47-48 | Only non-empty groups get a name input. |
| ApplyGroups.EffectiveNameSpec | popup.js:84-85 | The name an input commits under is its trimmed text, or the original name when the text is blank. |
| ApplyGroups.RenameKeys | popup.js:82-87 | The renamed object has one key per distinct effective name, in first-seen order. |
| ApplyGroups.RenameLastWins | popup.js:86 | The renamed object maps a name to the tabs of the last input carrying that name. |
| ApplyGroups.CommittedSpec | popup.js:90-91 | An entry is committed iff it has tabs. |
| ApplyGroups.OpsForShape | popup.js:92-94 | Each committed group produces one grouping call with its tab ids, then one title call with its name. |
| ApplyGroups.Commit | popup.js:89-97 | The commit loop issues exactly those calls and counts the tabs of the committed groups. |
| ApplyGroups.Apply | popup.js:78-99 | `applyGroups` issues the calls for the renamed groups. It reports their tab count and the number of distinct names. |
| ApplyGroups.CommitsEveryName | popup.js:82-99 | When every input belongs to a group with tabs, each distinct effective name is committed, in first-seen order. So the group count in the status line is the number of groups formed. |
| ApplyGroups.RenderedCommitsEveryName | popup.js:47-99 | The inputs rendered by the edit view, whatever text is typed into them, commit one group per distinct effective name. |
| ApplyGroups.UntouchedCollisionDropsTabs | popup.js:85-86 | With no edit at all, groups `Work` and ` Work ` both commit under `Work`, and only the second group's tab is grouped. |
| ApplyGroups.RenameCollisionDropsTabs | popup.js:86 | Renaming groups A and B both to `Team` commits only B's tab and reports one tab. |
| ApplyGroups.RenameMergedKeepsEveryTab | popup.js:82-87 | With merging, the renamed groups hold every tab of every input. |
| ApplyGroups.RenameMergedConcatenates | popup.js:82-87 | With merging, a name maps to the tabs of all inputs carrying it, in input order. |
| ApplyGroups.RenameMergedAbsent | popup.js:82-87 | With merging, a name no input carries is absent. |
| Worker.DownloadEvents | worker.js:16-20 | One download progress message per reported percentage, in order. |
| Worker.StatusTextInjective | worker.js:30-52 | Distinct progress statuses post distinct texts: the loading, download, classifying and per-tab messages can be told apart, and the counts in them can be read back. |
| Worker.LoadClassifierSpec | worker.js:8-25 | A cached classifier posts nothing. A first load posts "Loading AI model..." first and only progress messages, and caches the classifier iff it loads. |
| Worker.WorkerTextSpec | worker.js:42 | The classified text is the title, else the URL, else `Untitled`; it is never empty. |
| Worker.ClassifyLoopGroups | worker.js:38-53 | The worker's loop builds the groups of the shared grouping loop. Every tab is placed under its top label as an `{id, title}` record. |
| Worker.ClassifyLoopFails | worker.js:40-53 | The loop fails iff the classifier throws on the text of some tab. |
| Worker.ClassifyLoopProgress | worker.js:52 | A completed loop posts `Classified i/n tabs` for i = 1..n, in order. |
| Worker.ClassifyLoopProgressOnFailure | worker.js:40-53 | When tab i throws first, exactly the first i progress counts were posted. |
| Worker.WorkerGroupsMembers | worker.js:47-50 | Each group holds, in tab order, the records of exactly the tabs whose top label is its name. |
| Worker.WorkerGroupsCover | worker.js:40-50 | Every tab's record is in the group of its top label. |
| Worker.HandleMessageTerminates | worker.js:27-59 | Every message carrying tabs and labels gets exactly one terminal reply, posted last and preceded only by progress. |
| Worker.HandleMessageSuccess | worker.js:34-55 | When loading succeeds and no classification throws, the reply has a fixed layout. First come the load messages, then "Classifying tabs...", then n counts. Last comes `complete` with groups holding all n tabs. |
| Worker.HandleMessageClassifyFailure | worker.js:40-57 | When tab i throws first, the reply ends with i counts and then `error` with the exception's message. It never contains `complete`. |
| Worker.HandleMessageLoadFailure | worker.js:8-25 | A failed first load posts the loading and download messages, then `error`. No classifier is cached. |

## Left out

- The DOM is not modelled: rendering, buttons and status styling. Only the status line of `applyGroups` (popup.js:99, `StatusText`) and the worker's progress texts (`Status.Text`) are modelled. The popup's other status texts are not, including `Found N duplicate tabs.` (popup.js:185) and `Error: …` (popup.js:163, 188).
- Host calls are not modelled: `chrome.tabs.query`, `chrome.tabs.group`, `chrome.tabGroups.update`. `applyGroups` returns the calls it would make, as a list of operations; the group id returned by the host is not modelled, and those calls are assumed not to fail.
- The classification model library and the popup's `loadTransformers` are not modelled. The classifier is a parameter; it gives the first entry of `result.labels`, or throws.
- A classifier returning no labels at all is not modelled (the source would then use the key `undefined`).
- The download percentage `Math.round(loaded / total * 100)` (worker.js:18) is floating-point arithmetic. The percentages are given as naturals in `LoadAttempt`.
- `new URL(url).href` (popup.js:107-113) is a parameter `normalize`. Parsing URLs is not modelled.
- Asynchrony, `await`, and `postMessage` between the popup and the worker are not modelled. The worker's posts are a returned list of events; the handling of one message runs to completion.
- A JavaScript object lists integer-like keys (for example a label `"2"`) before the other keys. The association lists keep plain insertion order.
- Keys with special meaning on plain objects, such as `__proto__`, are not modelled.
- Worker.HandleMessageTerminates: a message is assumed to carry `tabs` and `labels`. A message without data throws at worker.js:28, before the `try`, and posts nothing; the model's message type cannot express that case.
- Tab titles and URLs are strings, never `undefined`. Likewise, group titles are strings: the host's `undefined` titles are treated as empty strings, which the filter at popup.js:18 drops.

## Findings

| source | as written | input that shows it | evidently intended | confidence | as-written member | corrected member |
|---|---|---|---|---|---|---|
| popup.js:23 | the exception path returns `customLabels` as they are, without the `Set` used at popup.js:20 | the input `a,a` when the host lookup throws: the labels are `["a", "a"]` | the label set has no repeats on every path, as on the merge path | medium, not executed | Labels.GetLabelsHostFailedKeepsRepeats | Labels.GetLabelsDedupedSpec |
| popup.js:86 | `renamedGroups[newName] = currentGroups[originalName]` replaces the tabs already stored under `newName` | two groups A and B both renamed to `Team`: only B's tab is committed, and the status says 1 tab | renaming two groups to the same name merges them, so that no tab is dropped | medium, not executed | ApplyGroups.RenameCollisionDropsTabs | ApplyGroups.RenameMergedKeepsEveryTab |

The model of `applyGroups` itself (`Apply`, `Rename`) follows the code as written. The merging
variant (`RenameMerged`, with `RenameMergedConcatenates` and `RenameMergedAbsent`) states the
intended behaviour. The collision does not need an edit. A typed label `Work` and an existing
group titled ` Work ` are different labels, because host titles are not trimmed (popup.js:18).
Yet their untouched inputs both commit under `Work` (`UntouchedCollisionDropsTabs`).

Likewise, `getLabels` itself (`GetLabels`) follows the code as written. `GetLabelsDeduped` is
the corrected variant.

One more property does not hold of the code, but it is not a defect: running duplicate
detection on its own output is not idempotent when a URL occurs three or more times
(`DuplicatesOfDuplicates`).

=== FILE: apply_groups.dfy ===
/**
 * Committing the reviewed groups (`applyGroups` in popup.js): each name input of the edit
 * view renames its group, the renamed groups are collected in an object keyed by the new
 * name, and each non-empty entry becomes one host tab group with that title. The host
 * calls are recorded as a list of operations.
 */
module ApplyGroups {
  import opened Wrappers
  import opened Seqs
  import opened AssocList
  import opened Text
  import opened Tabs

  /** One name input of the edit view: the group it was rendered for and its current text. */
  datatype NameInput = NameInput(originalName: string, value: string)

  /** The host calls of the commit loop, in issue order. */
  datatype HostOp =
    | GroupTabIds(tabIds: seq<int>)  // `chrome.tabs.group({tabIds})`, forming a new group
    | TitleGroup(title: string)      // `chrome.tabGroups.update(groupId, {title})` on that group

  /**
   * The names `renderEditView` renders an input for: the groups with at least one tab, in
   * entry order.
   */
  function EditableNames(groups: AList<seq<Tab>>): (r: seq<string>)
    ensures forall n :: n in r <==> exists i :: 0 <= i < |groups| && groups[i].0 == n && |groups[i].1| > 0
    decreases |groups|
  {
    if |groups| == 0 then []
    else
      var pre := groups[..|groups| - 1];
      var e := groups[|groups| - 1];
      assert forall i :: 0 <= i < |pre| ==> groups[i] == pre[i];
      EditableNames(pre) + (if |e.1| > 0 then [e.0] else [])
  }

  /** The inputs as rendered, before the user edits them: each shows its group's name. */
  function RenderedInputs(groups: AList<seq<Tab>>): seq<NameInput> {
    var names := EditableNames(groups);
    seq(|names|, i requires 0 <= i < |names| => NameInput(names[i], names[i]))
  }

  /** The input's trimmed text, or its original name when the trimmed text is empty. */
  function EffectiveName(input: NameInput): string {
    var t := Trim(input.value);
    if t != [] then t else input.originalName
  }

  /**
   * The group name an input commits under: its trimmed text, or its original name when the
   * text is blank. An input left as rendered keeps its name when that name is trimmed.
   */
  lemma EffectiveNameSpec(input: NameInput)
    ensures !AllWhitespace(input.value) ==> EffectiveName(input) == Trim(input.value) && IsTrimmed(EffectiveName(input))
    ensures AllWhitespace(input.value) ==> EffectiveName(input) == input.originalName
    ensures input.value == input.originalName && IsTrimmed(input.originalName) ==>
      EffectiveName(input) == input.originalName
  {
    if input.value == input.originalName && IsTrimmed(input.originalName) && input.value != [] {
      TrimPadded([], input.value, []);
      assert [] + input.value + [] == input.value;
    }
  }

  function EffectiveNames(inputs: seq<NameInput>): (r: seq<string>)
    ensures |r| == |inputs|
    ensures forall i :: 0 <= i < |inputs| ==> r[i] == EffectiveName(inputs[i])
    decreases |inputs|
  {
    if |inputs| == 0 then []
    else EffectiveNames(inputs[..|inputs| - 1]) + [EffectiveName(inputs[|inputs| - 1])]
  }

  /**
   * The renamed object: for each input in order, its effective name is assigned the current
   * group under its original name (`None` when there is none). A later input with the same effective name overwrites the
   * value of an earlier one in place.
   */
  function Rename(current: AList<seq<Tab>>, inputs: seq<NameInput>): AList<Option<seq<Tab>>>
    decreases |inputs|
  {
    if |inputs| == 0 then []
    else
      var last := inputs[|inputs| - 1];
      Put(Rename(current, inputs[..|inputs| - 1]), EffectiveName(last), Lookup(current, last.originalName))
  }

  /**
   * The renamed object has one key per distinct effective name, in the order the names
   * first occur among the inputs.
   */
  lemma {:induction false} RenameKeys(current: AList<seq<Tab>>, inputs: seq<NameInput>)
    ensures UniqueKeys(Rename(current, inputs))
    ensures Keys(Rename(current, inputs)) == Dedup(EffectiveNames(inputs))
    decreases |inputs|
  {
    if |inputs| > 0 {
      var pre := inputs[..|inputs| - 1];
      var last := inputs[|inputs| - 1];
      RenameKeys(current, pre);
      var r := Rename(current, pre);
      assert EffectiveNames(inputs) == EffectiveNames(pre) + [EffectiveName(last)];
      assert Rename(current, inputs) == Put(r, EffectiveName(last), Lookup(current, last.originalName));
      PutUniqueKeys(r, EffectiveName(last), Lookup(current, last.originalName));
      PutKeysDedup(r, EffectiveNames(pre), EffectiveName(last), Lookup(current, last.originalName));
    }
  }

  /**
   * Last writer wins: the value under an effective name is the group of the LAST input
   * with that effective name.
   */
  lemma {:induction false} RenameLastWins(current: AList<seq<Tab>>, inputs: seq<NameInput>, i: nat)
    requires i < |inputs|
    requires forall j :: i < j < |inputs| ==> EffectiveName(inputs[j]) != EffectiveName(inputs[i])
    ensures Lookup(Rename(current, inputs), EffectiveName(inputs[i])) == Some(Lookup(current, inputs[i].originalName))
    decreases |inputs|
  {
    var pre := inputs[..|inputs| - 1];
    var last := inputs[|inputs| - 1];
    PutSpec(Rename(current, pre), EffectiveName(last), Lookup(current, last.originalName));
    if i < |inputs| - 1 {
      assert inputs[i] == pre[i];
      RenameLastWins(current, pre, i);
    }
  }

  /** The entries the commit loop acts on: those whose tab list is present and non-empty. */
  function Committed(renamed: AList<Option<seq<Tab>>>): AList<seq<Tab>>
    decreases |renamed|
  {
    if |renamed| == 0 then []
    else
      var e := renamed[|renamed| - 1];
      Committed(renamed[..|renamed| - 1]) + (if e.1.Some? && |e.1.value| > 0 then [(e.0, e.1.value)] else [])
  }

  /** An entry is committed exactly when it is a renamed entry with a present, non-empty tab list. */
  lemma {:induction false} CommittedSpec(renamed: AList<Option<seq<Tab>>>, name: string, tabs: seq<Tab>)
    ensures (name, tabs) in Committed(renamed) <==> tabs != [] && (name, Some(tabs)) in renamed
    decreases |renamed|
  {
    if |renamed| > 0 {
      var pre := renamed[..|renamed| - 1];
      CommittedSpec(pre, name, tabs);
      assert renamed == pre + [renamed[|renamed| - 1]];
    }
  }

  /** The ids of the tabs, in order. */
  function Ids(tabs: seq<Tab>): seq<int>
  {
    seq(|tabs|, i requires 0 <= i < |tabs| => tabs[i].id)
  }

  /** The host calls for a list of entries: form the group, then title it, entry by entry. */
  function OpsFor(entries: AList<seq<Tab>>): seq<HostOp>
    decreases |entries|
  {
    if |entries| == 0 then []
    else
      var e := entries[|entries| - 1];
      OpsFor(entries[..|entries| - 1]) + [GroupTabIds(Ids(e.1)), TitleGroup(e.0)]
  }

  /**
   * Exactly two host calls per committed entry, in entry order: the group call with the
   * entry's tab ids, then the title call with the entry's name.
   */
  lemma {:induction false} OpsForShape(entries: AList<seq<Tab>>)
    ensures |OpsFor(entries)| == 2 * |entries|
    ensures forall m :: 0 <= m < |entries| ==>
      OpsFor(entries)[2 * m] == GroupTabIds(Ids(entries[m].1)) && OpsFor(entries)[2 * m + 1] == TitleGroup(entries[m].0)
    decreases |entries|
  {
    if |entries| > 0 {
      var pre := entries[..|entries| - 1];
      OpsForShape(pre);
      assert forall m :: 0 <= m < |pre| ==> entries[m] == pre[m];
    }
  }

  /**
   * The commit loop of `applyGroups`: for each renamed entry in order, skip it when its
   * tabs are missing or empty, otherwise issue the group and title calls and add its tab
   * count.
   */
  method Commit(renamed: AList<Option<seq<Tab>>>) returns (ops: seq<HostOp>, groupedCount: nat)
    ensures ops == OpsFor(Committed(renamed))
    ensures groupedCount == TotalSize(Committed(renamed))
  {
    ops := [];
    groupedCount := 0;
    var i := 0;
    while i < |renamed|
      invariant 0 <= i <= |renamed|
      invariant ops == OpsFor(Committed(renamed[..i]))
      invariant groupedCount == TotalSize(Committed(renamed[..i]))
    {
      var name := renamed[i].0;
      var tabs := renamed[i].1;
      CommitStep(renamed, i);
      if tabs.Some? && |tabs.value| > 0 {
        var ids := Ids(tabs.value);
        ops := ops + [GroupTabIds(ids), TitleGroup(name)];
        groupedCount := groupedCount + |ids|;
      }
      i := i + 1;
    }
    assert renamed[..i] == renamed;
  }

  /** One turn of the commit loop: entry `i` adds its two calls and its tabs, or nothing. */
  lemma CommitStep(renamed: AList<Option<seq<Tab>>>, i: nat)
    requires i < |renamed|
    ensures var c := Committed(renamed[..i]);
      var e := renamed[i];
      if e.1.Some? && |e.1.value| > 0 then
        && Committed(renamed[..i + 1]) == c + [(e.0, e.1.value)]
        && OpsFor(Committed(renamed[..i + 1])) == OpsFor(c) + [GroupTabIds(Ids(e.1.value)), TitleGroup(e.0)]
        && TotalSize(Committed(renamed[..i + 1])) == TotalSize(c) + |e.1.value|
      else
        Committed(renamed[..i + 1]) == c
  {
    var c := Committed(renamed[..i]);
    var e := renamed[i];
    assert renamed[..i + 1][..i] == renamed[..i];
    assert renamed[..i + 1][i] == e;
    if e.1.Some? && |e.1.value| > 0 {
      var c' := c + [(e.0, e.1.value)];
      assert Committed(renamed[..i + 1]) == c';
      assert c'[..|c|] == c;
      TotalSizeAppend(c, e.0, e.1.value);
    } else {
      assert c + [] == c;
    }
  }

  /** The success status: the number of tabs grouped and the number of keys of the renamed object. */
  function StatusText(groupedCount: nat, groupCount: nat): string {
    "Organized " + NatToString(groupedCount) + " tabs into " + NatToString(groupCount) + " groups"
  }

  /**
   * `applyGroups`: rename, commit, and report. The reported group count is the number of
   * keys of the renamed object, which counts every distinct effective name.
   */
  method Apply(current: AList<seq<Tab>>, inputs: seq<NameInput>) returns (ops: seq<HostOp>, status: string)
    ensures ops == OpsFor(Committed(Rename(current, inputs)))
    ensures status == StatusText(TotalSize(Committed(Rename(current, inputs))), |Dedup(EffectiveNames(inputs))|)
  {
    var renamed := Rename(current, inputs);
    var groupedCount;
    ops, groupedCount := Commit(renamed);
    RenameKeys(current, inputs);
    status := StatusText(groupedCount, |renamed|);
  }

  /** Every entry of a renamed object has a present, non-empty tab list. */
  predicate Filled(renamed: AList<Option<seq<Tab>>>) {
    forall i :: 0 <= i < |renamed| ==> renamed[i].1.Some? && |renamed[i].1.value| > 0
  }

  lemma {:induction false} PutFilled(a: AList<Option<seq<Tab>>>, k: string, v: Option<seq<Tab>>)
    requires Filled(a) && v.Some? && |v.value| > 0
    ensures Filled(Put(a, k, v))
    decreases |a|
  {
    if |a| > 0 && a[0].0 != k {
      assert Filled(a[1..]) by {
        forall i | 0 <= i < |a[1..]|
          ensures a[1..][i].1.Some? && |a[1..][i].1.value| > 0
        {
          assert a[1..][i] == a[i + 1];
        }
      }
      PutFilled(a[1..], k, v);
    }
  }

  /** Inputs rendered for groups with tabs only ever assign present, non-empty tab lists. */
  lemma {:induction false} RenameFilled(current: AList<seq<Tab>>, inputs: seq<NameInput>)
    requires UniqueKeys(current)
    requires forall i :: 0 <= i < |inputs| ==> inputs[i].originalName in EditableNames(current)
    ensures Filled(Rename(current, inputs))
    decreases |inputs|
  {
    if |inputs| > 0 {
      var pre := inputs[..|inputs| - 1];
      var last := inputs[|inputs| - 1];
      assert forall i :: 0 <= i < |pre| ==> pre[i] == inputs[i];
      RenameFilled(current, pre);
      var j :| 0 <= j < |current| && current[j].0 == last.originalName && |current[j].1| > 0;
      LookupAt(current, j);
      PutFilled(Rename(current, pre), EffectiveName(last), Lookup(current, last.originalName));
    }
  }

  /** On a filled renamed object the commit loop skips nothing. */
  lemma {:induction false} CommittedFilled(renamed: AList<Option<seq<Tab>>>)
    requires Filled(renamed)
    ensures |Committed(renamed)| == |renamed|
    ensures Keys(Committed(renamed)) == Keys(renamed)
    decreases |renamed|
  {
    if |renamed| > 0 {
      var pre := renamed[..|renamed| - 1];
      var e := renamed[|renamed| - 1];
      assert Filled(pre) by {
        forall i | 0 <= i < |pre|
          ensures pre[i].1.Some? && |pre[i].1.value| > 0
        {
          assert pre[i] == renamed[i];
        }
      }
      CommittedFilled(pre);
      var c := Committed(pre) + [(e.0, e.1.value)];
      assert Committed(renamed) == c;
      assert Keys(renamed) == Keys(pre) + [e.0] by {
        assert renamed == pre + [e];
      }
      assert Keys(c) == Keys(Committed(pre)) + [e.0];
    }
  }

  /**
   * When every input belongs to a group with tabs, every distinct effective name is
   * committed, in first-seen order, so the number of groups the status line reports is
   * the number of groups formed.
   */
  lemma CommitsEveryName(current: AList<seq<Tab>>, inputs: seq<NameInput>)
    requires UniqueKeys(current)
    requires forall i :: 0 <= i < |inputs| ==> inputs[i].originalName in EditableNames(current)
    ensures Keys(Committed(Rename(current, inputs))) == Dedup(EffectiveNames(inputs))
    ensures |Committed(Rename(current, inputs))| == |Dedup(EffectiveNames(inputs))|
  {
    RenameFilled(current, inputs);
    CommittedFilled(Rename(current, inputs));
    RenameKeys(current, inputs);
  }

  /**
   * The inputs of the edit view, whatever text the user typed into them, commit one group
   * per distinct effective name: the reported group count is the number of groups formed.
   */
  lemma RenderedCommitsEveryName(current: AList<seq<Tab>>, inputs: seq<NameInput>)
    requires UniqueKeys(current)
    requires |inputs| == |RenderedInputs(current)|
    requires forall i :: 0 <= i < |inputs| ==> inputs[i].originalName == RenderedInputs(current)[i].originalName
    ensures Keys(Committed(Rename(current, inputs))) == Dedup(EffectiveNames(inputs))
    ensures |Committed(Rename(current, inputs))| == |Dedup(EffectiveNames(inputs))|
  {
    var names := EditableNames(current);
    forall i | 0 <= i < |inputs|
      ensures inputs[i].originalName in names
    {
      assert RenderedInputs(current)[i].originalName == names[i];
    }
    CommitsEveryName(current, inputs);
  }

  /**
   * Tabs are lost even without an edit: groups `Work` and ` Work ` (a typed label and an
   * untrimmed host group title) render as two inputs whose effective names are both `Work`,
   * so only the second group's tab is grouped.
   */
  lemma UntouchedCollisionDropsTabs(a: Tab, b: Tab)
    ensures var current := [("Work", [a]), (" Work ", [b])];
      && Rename(current, RenderedInputs(current)) == [("Work", Some([b]))]
      && OpsFor(Committed(Rename(current, RenderedInputs(current)))) == [GroupTabIds([b.id]), TitleGroup("Work")]
  {
    var current := [("Work", [a]), (" Work ", [b])];
    var inputs := RenderedInputs(current);
    UntouchedInputs(a, b);
    UntouchedNames();
    assert Lookup(current, "Work") == Some([a]);
    assert Lookup(current, " Work ") == Some([b]) by {
      assert current[1..] == [(" Work ", [b])];
    }
    assert Rename(current, inputs[..1]) == [("Work", Some([a]))] by {
      assert inputs[..1][..0] == [];
    }
    assert Rename(current, inputs) == Put([("Work", Some([a]))], "Work", Some([b]));
    var r := [("Work", Some([b]))];
    assert Committed(r) == [("Work", [b])] by {
      assert r[..0] == [];
    }
    var c := [("Work", [b])];
    assert OpsFor(c) == [GroupTabIds([b.id]), TitleGroup("Work")] by {
      assert c[..0] == [];
      assert Ids([b]) == [b.id];
    }
  }

  lemma UntouchedInputs(a: Tab, b: Tab)
    ensures RenderedInputs([("Work", [a]), (" Work ", [b])])
      == [NameInput("Work", "Work"), NameInput(" Work ", " Work ")]
  {
    var current := [("Work", [a]), (" Work ", [b])];
    var first := current[..1];
    assert first == [("Work", [a])];
    assert first[..0] == [];
    assert EditableNames(first) == ["Work"];
    assert EditableNames(current) == EditableNames(first) + [" Work "];
  }

  lemma UntouchedNames()
    ensures EffectiveName(NameInput("Work", "Work")) == "Work"
    ensures EffectiveName(NameInput(" Work ", " Work ")) == "Work"
  {
    TrimPadded([], "Work", []);
    assert [] + "Work" + [] == "Work";
    TrimPadded(" ", "Work", " ");
    assert " " + "Work" + " " == " Work ";
  }

  /**
   * Two groups renamed to the same name: the object keeps only the later group, so only
   * its tabs are grouped and the earlier group's tabs are left out of every host call.
   */
  lemma RenameCollisionDropsTabs(ta: Tab, tb: Tab)
    ensures var current := [("A", [ta]), ("B", [tb])];
      var inputs := [NameInput("A", "Team"), NameInput("B", "Team")];
      && Rename(current, inputs) == [("Team", Some([tb]))]
      && OpsFor(Committed(Rename(current, inputs))) == [GroupTabIds([tb.id]), TitleGroup("Team")]
      && TotalSize(Committed(Rename(current, inputs))) == 1
  {
    CollisionRename(ta, tb);
    var r := [("Team", Some([tb]))];
    assert Committed(r) == [("Team", [tb])] by {
      assert r[..0] == [];
    }
    var c := [("Team", [tb])];
    assert OpsFor(c) == [GroupTabIds([tb.id]), TitleGroup("Team")] by {
      assert c[..0] == [];
      assert Ids([tb]) == [tb.id];
    }
    assert TotalSize(c) == 1 by {
      assert c[1..] == [];
    }
  }

  lemma CollisionRename(ta: Tab, tb: Tab)
    ensures Rename([("A", [ta]), ("B", [tb])], [NameInput("A", "Team"), NameInput("B", "Team")])
      == [("Team", Some([tb]))]
  {
    var current := [("A", [ta]), ("B", [tb])];
    var inputs := [NameInput("A", "Team"), NameInput("B", "Team")];
    assert EffectiveName(inputs[0]) == "Team" && EffectiveName(inputs[1]) == "Team" by {
      TrimPadded([], "Team", []);
      assert [] + "Team" + [] == "Team";
    }
    assert Rename(current, inputs[..1]) == [("Team", Some([ta]))] by {
      assert inputs[..1][..0] == [];
      assert Lookup(current, "A") == Some([ta]);
    }
    assert Lookup(current, "B") == Some([tb]) by {
      assert current[1..] == [("B", [tb])];
    }
    assert Put([("Team", Some([ta]))], "Team", Some([tb])) == [("Team", Some([tb]))];
  }

  /**
   * Rename with merging: an input whose effective name is already present appends its tabs
   * to that entry instead of replacing them.
   */
  function RenameMerged(current: AList<seq<Tab>>, inputs: seq<NameInput>): AList<seq<Tab>>
    decreases |inputs|
  {
    if |inputs| == 0 then []
    else
      var last := inputs[|inputs| - 1];
      var r := RenameMerged(current, inputs[..|inputs| - 1]);
      var n := EffectiveName(last);
      var earlier := ListAt(r, n);
      Put(r, n, earlier + ListAt(current, last.originalName))
  }

  /** The tabs of all inputs, in input order. */
  function InputTabs(current: AList<seq<Tab>>, inputs: seq<NameInput>): seq<Tab>
    decreases |inputs|
  {
    if |inputs| == 0 then []
    else InputTabs(current, inputs[..|inputs| - 1]) + ListAt(current, inputs[|inputs| - 1].originalName)
  }

  /** The tabs of the inputs whose effective name is `n`, in input order. */
  function TabsNamed(current: AList<seq<Tab>>, inputs: seq<NameInput>, n: string): seq<Tab>
    decreases |inputs|
  {
    if |inputs| == 0 then []
    else
      var last := inputs[|inputs| - 1];
      TabsNamed(current, inputs[..|inputs| - 1], n) + (if EffectiveName(last) == n then ListAt(current, last.originalName) else [])
  }

  /** With merging no tab is lost: the entries together hold every input's tabs. */
  lemma {:induction false} RenameMergedKeepsEveryTab(current: AList<seq<Tab>>, inputs: seq<NameInput>)
    ensures TotalSize(RenameMerged(current, inputs)) == |InputTabs(current, inputs)|
    decreases |inputs|
  {
    if |inputs| > 0 {
      var last := inputs[|inputs| - 1];
      var pre := inputs[..|inputs| - 1];
      RenameMergedKeepsEveryTab(current, pre);
      var r := RenameMerged(current, pre);
      var n := EffectiveName(last);
      var earlier := ListAt(r, n);
      TotalSizePut(r, n, earlier + ListAt(current, last.originalName));
    }
  }

  /**
   * With merging, the entry for a name holds the tabs of all inputs renamed to it,
   * concatenated in input order.
   */
  lemma {:induction false} RenameMergedConcatenates(current: AList<seq<Tab>>, inputs: seq<NameInput>, n: string)
    requires n in EffectiveNames(inputs)
    ensures Lookup(RenameMerged(current, inputs), n) == Some(TabsNamed(current, inputs, n))
    decreases |inputs|
  {
    var last := inputs[|inputs| - 1];
    var pre := inputs[..|inputs| - 1];
    var r := RenameMerged(current, pre);
    var m := EffectiveName(last);
    var earlier := ListAt(r, m);
    assert RenameMerged(current, inputs) == Put(r, m, earlier + ListAt(current, last.originalName));
    PutSpec(r, m, earlier + ListAt(current, last.originalName));
    assert EffectiveNames(inputs) == EffectiveNames(pre) + [m];
    var before := TabsNamed(current, pre, n);
    assert TabsNamed(current, inputs, n) == before + (if m == n then ListAt(current, last.originalName) else []);
    if n in EffectiveNames(pre) {
      RenameMergedConcatenates(current, pre, n);
      if m != n {
        assert before + [] == before;
      }
    } else {
      RenameMergedAbsent(current, pre, n);
      assert m == n;
      assert earlier == [];
      assert [] + ListAt(current, last.originalName) == ListAt(current, last.originalName);
    }
  }

  lemma {:induction false} RenameMergedAbsent(current: AList<seq<Tab>>, inputs: seq<NameInput>, n: string)
    requires n !in EffectiveNames(inputs)
    ensures Lookup(RenameMerged(current, inputs), n).None?
    ensures TabsNamed(current, inputs, n) == []
    decreases |inputs|
  {
    if |inputs| > 0 {
      var pre := inputs[..|inputs| - 1];
      var last := inputs[|inputs| - 1];
      var r := RenameMerged(current, pre);
      var m := EffectiveName(last);
      var earlier := ListAt(r, m);
      PutSpec(r, m, earlier + ListAt(current, last.originalName));
      assert EffectiveNames(inputs) == EffectiveNames(pre) + [m];
      RenameMergedAbsent(current, pre, n);
    }
  }
}

=== FILE: assoc_list.dfy ===
/**
 * A JavaScript plain object used as a map from string keys, modelled as an insertion-ordered
 * association list. `Object.entries`/`Object.keys` enumerate entries in insertion order,
 * and assigning to a key that is already present replaces its value in place without
 * moving it. (Real objects enumerate integer-like keys first, in numeric order; that
 * ordering is not modelled.)
 */
module AssocList {
  import opened Wrappers
  import opened Seqs

  type AList<V> = seq<(string, V)>

  /** `Object.keys(a)`. */
  function Keys<V>(a: AList<V>): (ks: seq<string>)
    ensures |ks| == |a|
    ensures forall i :: 0 <= i < |a| ==> ks[i] == a[i].0
  {
    if |a| == 0 then [] else [a[0].0] + Keys(a[1..])
  }

  /** Every key occurs once, as in any JavaScript object. */
  predicate UniqueKeys<V>(a: AList<V>) {
    NoDups(Keys(a))
  }

  /** `a[k]`, with `None` for `undefined`: the value at the first entry for `k`. */
  function Lookup<V>(a: AList<V>, k: string): (r: Option<V>)
    ensures r.Some? <==> k in Keys(a)
  {
    if |a| == 0 then None
    else if a[0].0 == k then Some(a[0].1)
    else
      assert Keys(a) == [a[0].0] + Keys(a[1..]);
      Lookup(a[1..], k)
  }

  /** In a list with unique keys, the entry at position `i` is what `Lookup` finds for its key. */
  lemma LookupAt<V>(a: AList<V>, i: nat)
    requires UniqueKeys(a) && i < |a|
    ensures Lookup(a, a[i].0) == Some(a[i].1)
  {
    if i > 0 {
      assert Keys(a)[0] != Keys(a)[i];
      assert Keys(a[1..]) == Keys(a)[1..];
      LookupAt(a[1..], i - 1);
    }
  }

  /**
   * Assignment to a key: replaces the value of an existing key where it stands, or appends a new
   * entry at the end.
   */
  function Put<V>(a: AList<V>, k: string, v: V): AList<V>
    decreases |a|
  {
    if |a| == 0 then [(k, v)]
    else if a[0].0 == k then [(k, v)] + a[1..]
    else [a[0]] + Put(a[1..], k, v)
  }

  /**
   * Assignment adds `k` at the end of the keys only when it is new, makes `k` hold `v`,
   * and leaves every other key's value alone.
   */
  lemma {:induction false} PutSpec<V>(a: AList<V>, k: string, v: V)
    ensures Keys(Put(a, k, v)) == if k in Keys(a) then Keys(a) else Keys(a) + [k]
    ensures Lookup(Put(a, k, v), k) == Some(v)
    ensures forall k' :: k' != k ==> Lookup(Put(a, k, v), k') == Lookup(a, k')
    decreases |a|
  {
    if |a| > 0 {
      var r := Put(a, k, v);
      assert Keys(a) == [a[0].0] + Keys(a[1..]);
      if a[0].0 == k {
        assert r[1..] == a[1..];
        assert Keys(r) == [k] + Keys(a[1..]);
      } else {
        PutSpec(a[1..], k, v);
        assert r[1..] == Put(a[1..], k, v);
        assert Keys(r) == [a[0].0] + Keys(Put(a[1..], k, v));
      }
    }
  }

  /** Assignment keeps the keys of an object unique. */
  lemma PutUniqueKeys<V>(a: AList<V>, k: string, v: V)
    requires UniqueKeys(a)
    ensures UniqueKeys(Put(a, k, v))
  {
    PutSpec(a, k, v);
    var ks := Keys(a);
    if k !in ks {
      assert forall i :: 0 <= i < |ks| ==> (ks + [k])[i] == ks[i];
    }
  }

  /**
   * Lazy creation then push: appends `x` to the list under `k`,
   * creating the list (at the end of the object) if `k` is new.
   */
  function Push<X>(a: AList<seq<X>>, k: string, x: X): AList<seq<X>>
    decreases |a|
  {
    if |a| == 0 then [(k, [x])]
    else if a[0].0 == k then [(k, a[0].1 + [x])] + a[1..]
    else [a[0]] + Push(a[1..], k, x)
  }

  /** The list under `k`, with `[]` standing in for a missing key. */
  function ListAt<X>(a: AList<seq<X>>, k: string): seq<X> {
    match Lookup(a, k)
    case Some(xs) => xs
    case None => []
  }

  /** Pushing is assigning the old list (or a new empty one) extended by `x`. */
  lemma {:induction false} PushIsAssignment<X>(a: AList<seq<X>>, k: string, x: X)
    ensures Push(a, k, x) == Put(a, k, ListAt(a, k) + [x])
    decreases |a|
  {
    if |a| == 0 {
      assert [] + [x] == [x];
    } else if a[0].0 == k {
      assert ListAt(a, k) == a[0].1;
    } else {
      PushIsAssignment(a[1..], k, x);
      assert ListAt(a, k) == ListAt(a[1..], k);
    }
  }

  /**
   * Pushing adds `k` at the end of the keys only when it is new, extends the list under `k`
   * by `x` (or starts it with `x`), and leaves every other key's list alone.
   */
  lemma PushSpec<X>(a: AList<seq<X>>, k: string, x: X)
    ensures Keys(Push(a, k, x)) == if k in Keys(a) then Keys(a) else Keys(a) + [k]
    ensures Lookup(Push(a, k, x), k) == Some(if k in Keys(a) then Lookup(a, k).value + [x] else [x])
    ensures forall k' :: k' != k ==> Lookup(Push(a, k, x), k') == Lookup(a, k')
  {
    PushIsAssignment(a, k, x);
    PutSpec(a, k, ListAt(a, k) + [x]);
    if k !in Keys(a) {
      assert ListAt(a, k) + [x] == [x];
    }
  }

  /** Assigning keeps the keys equal to the first-seen order of the names assigned so far. */
  lemma PutKeysDedup<V>(a: AList<V>, names: seq<string>, k: string, v: V)
    requires Keys(a) == Dedup(names)
    ensures Keys(Put(a, k, v)) == Dedup(names + [k])
  {
    PutSpec(a, k, v);
    var all := names + [k];
    assert all[..|all| - 1] == names;
    assert k in Keys(a) <==> k in names;
  }

  /** Pushing keeps the keys equal to the first-seen order of the names pushed to so far. */
  lemma PushKeysDedup<X>(a: AList<seq<X>>, names: seq<string>, k: string, x: X)
    requires Keys(a) == Dedup(names)
    ensures Keys(Push(a, k, x)) == Dedup(names + [k])
  {
    PushIsAssignment(a, k, x);
    PutKeysDedup(a, names, k, ListAt(a, k) + [x]);
  }

  /** The total number of items held across all entries. */
  function TotalSize<X>(a: AList<seq<X>>): nat
  {
    if |a| == 0 then 0 else |a[0].1| + TotalSize(a[1..])
  }

  /** Pushing one item grows the total by exactly one. */
  lemma {:induction false} TotalSizePush<X>(a: AList<seq<X>>, k: string, x: X)
    ensures TotalSize(Push(a, k, x)) == TotalSize(a) + 1
  {
    PushIsAssignment(a, k, x);
    TotalSizePut(a, k, ListAt(a, k) + [x]);
  }

  /** Putting `v` under `k` changes the total by the size difference with the old value. */
  lemma {:induction false} TotalSizePut<X>(a: AList<seq<X>>, k: string, v: seq<X>)
    ensures TotalSize(Put(a, k, v)) + (if k in Keys(a) then |Lookup(a, k).value| else 0)
      == TotalSize(a) + |v|
    decreases |a|
  {
    if |a| > 0 {
      assert Keys(a) == [a[0].0] + Keys(a[1..]);
      if a[0].0 != k {
        TotalSizePut(a[1..], k, v);
        assert Put(a, k, v)[1..] == Put(a[1..], k, v);
      } else {
        assert Put(a, k, v)[1..] == a[1..];
      }
    }
  }

  /** Appending an entry adds its size to the total. */
  lemma {:induction false} TotalSizeAppend<X>(a: AList<seq<X>>, k: string, xs: seq<X>)
    ensures TotalSize(a + [(k, xs)]) == TotalSize(a) + |xs|
    decreases |a|
  {
    if |a| == 0 {
      assert a + [(k, xs)] == [(k, xs)];
    } else {
      assert (a + [(k, xs)])[1..] == a[1..] + [(k, xs)];
      TotalSizeAppend(a[1..], k, xs);
    }
  }
}

=== FILE: duplicates.dfy ===
/**
 * Duplicate-tab detection (`findDuplicateTabs` in popup.js): a left-to-right pass that
 * remembers the normalized URLs seen so far and reports every tab whose normalized URL was
 * already seen. `normalize` stands for `normalizeUrl`, which returns `new URL(url).href`
 * or the raw string when parsing throws; URL parsing is not part of this model, so the
 * normalizer is a parameter.
 */
module Duplicates {
  import opened Wrappers
  import opened AssocList
  import opened Tabs

  /** The normalized URLs of `tabs`. */
  function UrlSet(tabs: seq<Tab>, normalize: string -> string): set<string>
    decreases |tabs|
  {
    if |tabs| == 0 then {}
    else UrlSet(tabs[..|tabs| - 1], normalize) + {normalize(tabs[|tabs| - 1].url)}
  }

  lemma {:induction false} UrlSetSpec(tabs: seq<Tab>, normalize: string -> string, u: string)
    ensures u in UrlSet(tabs, normalize) <==> exists j :: 0 <= j < |tabs| && normalize(tabs[j].url) == u
    decreases |tabs|
  {
    if |tabs| > 0 {
      var pre := tabs[..|tabs| - 1];
      UrlSetSpec(pre, normalize, u);
      assert forall j :: 0 <= j < |pre| ==> tabs[j] == pre[j];
      var last := |tabs| - 1;
      assert normalize(tabs[last].url) == u ==> 0 <= last < |tabs| && normalize(tabs[last].url) == u;
    }
  }

  /** The tab at `i` repeats the normalized URL of an earlier tab. */
  predicate IsDuplicateAt(tabs: seq<Tab>, normalize: string -> string, i: nat)
    requires i < |tabs|
  {
    exists j :: 0 <= j < i && normalize(tabs[j].url) == normalize(tabs[i].url)
  }

  /** The duplicates of `tabs`: each tab whose normalized URL an earlier tab already had, in order. */
  function DuplicatesOf(tabs: seq<Tab>, normalize: string -> string): seq<Tab>
    decreases |tabs|
  {
    if |tabs| == 0 then []
    else
      var pre := tabs[..|tabs| - 1];
      var last := tabs[|tabs| - 1];
      DuplicatesOf(pre, normalize) + (if normalize(last.url) in UrlSet(pre, normalize) then [last] else [])
  }

  /** The positions of the duplicates, in increasing order. */
  function DuplicatePositions(tabs: seq<Tab>, normalize: string -> string): seq<nat>
    decreases |tabs|
  {
    if |tabs| == 0 then []
    else
      var pre := tabs[..|tabs| - 1];
      var i := |tabs| - 1;
      DuplicatePositions(pre, normalize) + (if normalize(tabs[i].url) in UrlSet(pre, normalize) then [i] else [])
  }

  /**
   * The reported tabs are the input tabs at strictly increasing positions (an
   * order-preserving subsequence), and a position is reported exactly when the tab there
   * repeats the normalized URL of an earlier tab.
   */
  lemma {:induction false} DuplicatesAreLaterOccurrences(tabs: seq<Tab>, normalize: string -> string)
    ensures var d := DuplicatesOf(tabs, normalize);
      var p := DuplicatePositions(tabs, normalize);
      && |d| == |p|
      && (forall m :: 0 <= m < |p| ==> p[m] < |tabs| && d[m] == tabs[p[m]])
      && (forall m, n :: 0 <= m < n < |p| ==> p[m] < p[n])
      && (forall i :: 0 <= i < |tabs| ==> (i in p <==> IsDuplicateAt(tabs, normalize, i)))
    decreases |tabs|
  {
    if |tabs| > 0 {
      var pre := tabs[..|tabs| - 1];
      var last := |tabs| - 1;
      DuplicatesAreLaterOccurrences(pre, normalize);
      var d0, p0 := DuplicatesOf(pre, normalize), DuplicatePositions(pre, normalize);
      var d, p := DuplicatesOf(tabs, normalize), DuplicatePositions(tabs, normalize);
      var dup := normalize(tabs[last].url) in UrlSet(pre, normalize);
      assert d == d0 + (if dup then [tabs[last]] else []);
      assert p == p0 + (if dup then [last] else []);
      assert forall j :: 0 <= j < |pre| ==> tabs[j] == pre[j];
      forall m | 0 <= m < |p|
        ensures p[m] < |tabs| && d[m] == tabs[p[m]]
      {
        if m < |p0| {
          assert p[m] == p0[m] && d[m] == d0[m];
        }
      }
      forall m, n | 0 <= m < n < |p|
        ensures p[m] < p[n]
      {
        if n < |p0| {
          assert p[m] == p0[m] && p[n] == p0[n];
        } else {
          assert p[m] == p0[m];
        }
      }
      forall i | 0 <= i < |tabs|
        ensures i in p <==> IsDuplicateAt(tabs, normalize, i)
      {
        if i < |pre| {
          assert IsDuplicateAt(tabs, normalize, i) <==> IsDuplicateAt(pre, normalize, i);
          assert i in p <==> i in p0;
        } else {
          UrlSetSpec(pre, normalize, normalize(tabs[last].url));
          assert last !in p0;
        }
      }
    }
  }

  /**
   * Every tab is either the first with its normalized URL or reported: the number of
   * duplicates plus the number of distinct normalized URLs is the number of tabs.
   */
  lemma {:induction false} DuplicatesCount(tabs: seq<Tab>, normalize: string -> string)
    ensures |DuplicatesOf(tabs, normalize)| + |UrlSet(tabs, normalize)| == |tabs|
    decreases |tabs|
  {
    if |tabs| > 0 {
      var pre := tabs[..|tabs| - 1];
      var u := normalize(tabs[|tabs| - 1].url);
      DuplicatesCount(pre, normalize);
      if u in UrlSet(pre, normalize) {
        assert UrlSet(tabs, normalize) == UrlSet(pre, normalize);
      } else {
        assert |UrlSet(pre, normalize) + {u}| == |UrlSet(pre, normalize)| + 1;
      }
    }
  }

  /** Tabs whose normalized URLs are pairwise distinct have no duplicates. */
  lemma DistinctUrlsNoDuplicates(tabs: seq<Tab>, normalize: string -> string)
    requires forall i, j :: 0 <= i < j < |tabs| ==> normalize(tabs[i].url) != normalize(tabs[j].url)
    ensures DuplicatesOf(tabs, normalize) == []
  {
    DistinctUrlSetSize(tabs, normalize);
    DuplicatesCount(tabs, normalize);
  }

  lemma {:induction false} DistinctUrlSetSize(tabs: seq<Tab>, normalize: string -> string)
    requires forall i, j :: 0 <= i < j < |tabs| ==> normalize(tabs[i].url) != normalize(tabs[j].url)
    ensures |UrlSet(tabs, normalize)| == |tabs|
    decreases |tabs|
  {
    if |tabs| > 0 {
      var pre := tabs[..|tabs| - 1];
      var u := normalize(tabs[|tabs| - 1].url);
      assert forall j :: 0 <= j < |pre| ==> tabs[j] == pre[j];
      DistinctUrlSetSize(pre, normalize);
      UrlSetSpec(pre, normalize, u);
      assert u !in UrlSet(pre, normalize);
      assert |UrlSet(pre, normalize) + {u}| == |UrlSet(pre, normalize)| + 1;
    }
  }

  /**
   * Five tabs whose URLs normalize to u1, u2, u1, u3, u2: the duplicates are the third and
   * the fifth tab, in that order.
   */
  lemma FiveTabExample(t: seq<Tab>, normalize: string -> string)
    requires |t| == 5
    requires normalize(t[2].url) == normalize(t[0].url)
    requires normalize(t[4].url) == normalize(t[1].url)
    requires normalize(t[0].url) != normalize(t[1].url)
    requires normalize(t[3].url) != normalize(t[0].url)
    requires normalize(t[3].url) != normalize(t[1].url)
    ensures DuplicatesOf(t, normalize) == [t[2], t[4]]
  {
    assert t[..5] == t;
    assert t[..5][..4] == t[..4];
    assert t[..4][..3] == t[..3];
    assert t[..3][..2] == t[..2];
    assert t[..2][..1] == t[..1];
    assert t[..1][..0] == [];
    assert UrlSet(t[..1], normalize) == {normalize(t[0].url)};
    assert DuplicatesOf(t[..1], normalize) == [];
    assert t[..2][1] == t[1];
    assert UrlSet(t[..2], normalize) == {normalize(t[0].url), normalize(t[1].url)};
    assert DuplicatesOf(t[..2], normalize) == [];
    assert DuplicatesOf(t[..3], normalize) == [t[2]];
    assert UrlSet(t[..4], normalize) == {normalize(t[0].url), normalize(t[1].url), normalize(t[3].url)};
    assert DuplicatesOf(t[..4], normalize) == [t[2]];
  }

  /**
   * Detection is not idempotent: when three tabs share a normalized URL, the duplicates
   * (the second and third tab) still contain a duplicate.
   */
  lemma DuplicatesOfDuplicates(t: seq<Tab>, normalize: string -> string)
    requires |t| == 3
    requires normalize(t[1].url) == normalize(t[0].url)
    requires normalize(t[2].url) == normalize(t[0].url)
    ensures DuplicatesOf(t, normalize) == [t[1], t[2]]
    ensures DuplicatesOf(DuplicatesOf(t, normalize), normalize) == [t[2]]
  {
    assert t[..3] == t;
    assert t[..3][..2] == t[..2];
    assert t[..2][..1] == t[..1];
    assert t[..1][..0] == [];
    assert UrlSet(t[..1], normalize) == {normalize(t[0].url)};
    assert DuplicatesOf(t[..1], normalize) == [];
    assert t[..2][1] == t[1];
    assert DuplicatesOf(t[..2], normalize) == [t[1]];
    var d := [t[1], t[2]];
    assert d[..1] == [t[1]];
    assert [t[1]][..0] == [];
  }

  /**
   * `findDuplicateTabs`: one pass with a set of the normalized URLs seen so far; a tab
   * whose URL is already in the set is appended to the result, otherwise its URL is added.
   */
  method FindDuplicateTabs(tabs: seq<Tab>, normalize: string -> string) returns (duplicates: seq<Tab>)
    ensures duplicates == DuplicatesOf(tabs, normalize)
  {
    var seenUrls: set<string> := {};
    duplicates := [];
    var i := 0;
    while i < |tabs|
      invariant 0 <= i <= |tabs|
      invariant seenUrls == UrlSet(tabs[..i], normalize)
      invariant duplicates == DuplicatesOf(tabs[..i], normalize)
    {
      var url := normalize(tabs[i].url);
      assert tabs[..i + 1][..i] == tabs[..i];
      if url in seenUrls {
        duplicates := duplicates + [tabs[i]];
      } else {
        seenUrls := seenUrls + {url};
      }
      i := i + 1;
    }
    assert tabs[..i] == tabs;
  }

  /**
   * The duplicate button's outcome: no group when nothing is duplicated, otherwise the
   * single group "Duplicates" holding the duplicates in order.
   */
  function DuplicateGroups(tabs: seq<Tab>, normalize: string -> string): (r: Option<AList<seq<Tab>>>)
    ensures r.None? <==> DuplicatesOf(tabs, normalize) == []
    ensures r.Some? ==> Keys(r.value) == ["Duplicates"]
    ensures r.Some? ==> Lookup(r.value, "Duplicates") == Some(DuplicatesOf(tabs, normalize))
  {
    var d := DuplicatesOf(tabs, normalize);
    if |d| == 0 then None else Some([("Duplicates", d)])
  }
}

=== FILE: grouping.dfy ===
/**
 * The classify-and-group loop shared by the popup and the worker: each item is either
 * skipped, pushed onto the list under a group name (created empty on first use),
 * or makes the whole run throw. The popup and the worker differ only in how they decide and
 * in the record they store, so both are instances of `GroupInto`.
 */
module Grouping {
  import opened Wrappers
  import opened Seqs
  import opened AssocList

  /** What the loop does with one item. */
  datatype Decision = Skip | Place(group: string) | Fail(message: string)

  /** The loop over `xs` in order; the first `Fail` aborts it with its message. */
  function GroupInto<T, R>(xs: seq<T>, decide: T -> Decision, rec: T -> R): Result<AList<seq<R>>, string>
    decreases |xs|
  {
    if |xs| == 0 then Success([])
    else
      match GroupInto(xs[..|xs| - 1], decide, rec)
      case Failure(e) => Failure(e)
      case Success(g) =>
        match decide(xs[|xs| - 1])
        case Skip => Success(g)
        case Fail(m) => Failure(m)
        case Place(k) => Success(Push(g, k, rec(xs[|xs| - 1])))
  }

  /** The group names items are placed under, in item order (with repeats). */
  function Placed<T>(xs: seq<T>, decide: T -> Decision): (r: seq<string>)
    ensures |r| <= |xs|
    ensures forall i :: 0 <= i < |xs| && decide(xs[i]).Place? ==> decide(xs[i]).group in r
    ensures forall k :: k in r ==> exists i :: 0 <= i < |xs| && decide(xs[i]) == Place(k)
    decreases |xs|
  {
    if |xs| == 0 then []
    else
      var pre := xs[..|xs| - 1];
      var r := Placed(pre, decide) + (if decide(xs[|xs| - 1]).Place? then [decide(xs[|xs| - 1]).group] else []);
      assert forall i :: 0 <= i < |pre| ==> xs[i] == pre[i];
      r
  }

  /**
   * The records of the items placed under `k`, in item order: what the group `k` should
   * hold, stated without reference to the loop.
   */
  function Members<T, R>(xs: seq<T>, decide: T -> Decision, rec: T -> R, k: string): seq<R>
    decreases |xs|
  {
    if |xs| == 0 then []
    else
      var x := xs[|xs| - 1];
      Members(xs[..|xs| - 1], decide, rec, k) + (if decide(x) == Place(k) then [rec(x)] else [])
  }

  /**
   * `Members` holds the record of every item placed under `k`, only such records, and is
   * empty exactly when no item is placed under `k`.
   */
  lemma {:induction false} MembersSpec<T, R>(xs: seq<T>, decide: T -> Decision, rec: T -> R, k: string)
    ensures forall i :: 0 <= i < |xs| && decide(xs[i]) == Place(k) ==> rec(xs[i]) in Members(xs, decide, rec, k)
    ensures forall y :: y in Members(xs, decide, rec, k) ==>
      exists i :: 0 <= i < |xs| && decide(xs[i]) == Place(k) && rec(xs[i]) == y
    ensures Members(xs, decide, rec, k) == [] <==> forall i :: 0 <= i < |xs| ==> decide(xs[i]) != Place(k)
    decreases |xs|
  {
    if |xs| > 0 {
      var pre := xs[..|xs| - 1];
      MembersSpec(pre, decide, rec, k);
      assert forall i :: 0 <= i < |pre| ==> xs[i] == pre[i];
    }
  }

  /** When no item fails or is skipped, one name is placed per item. */
  lemma {:induction false} AllPlaced<T>(xs: seq<T>, decide: T -> Decision)
    requires forall i :: 0 <= i < |xs| ==> decide(xs[i]).Place?
    ensures |Placed(xs, decide)| == |xs|
    decreases |xs|
  {
    if |xs| > 0 {
      var pre := xs[..|xs| - 1];
      assert forall i :: 0 <= i < |pre| ==> xs[i] == pre[i];
      AllPlaced(pre, decide);
    }
  }

  /** Some item decides to fail. */
  predicate SomeFails<T>(xs: seq<T>, decide: T -> Decision) {
    exists i :: 0 <= i < |xs| && decide(xs[i]).Fail?
  }

  /** Item `i` is the first item that decides to fail. */
  predicate FirstFailureAt<T>(xs: seq<T>, decide: T -> Decision, i: nat) {
    && i < |xs|
    && decide(xs[i]).Fail?
    && forall j :: 0 <= j < i ==> !decide(xs[j]).Fail?
  }

  /** The position of the first failing item, when some item fails. */
  function FirstFailingIndex<T>(xs: seq<T>, decide: T -> Decision): (i: nat)
    requires SomeFails(xs, decide)
    ensures FirstFailureAt(xs, decide, i)
    decreases |xs|
  {
    if decide(xs[0]).Fail? then 0
    else
      assert SomeFails(xs[1..], decide) by {
        var j :| 0 <= j < |xs| && decide(xs[j]).Fail?;
        assert xs[1..][j - 1] == xs[j];
      }
      1 + FirstFailingIndex(xs[1..], decide)
  }

  /** The loop fails exactly when some item fails. */
  lemma {:induction false} GroupIntoFailure<T, R>(xs: seq<T>, decide: T -> Decision, rec: T -> R)
    ensures GroupInto(xs, decide, rec).Failure? <==> SomeFails(xs, decide)
    decreases |xs|
  {
    if |xs| > 0 {
      var pre := xs[..|xs| - 1];
      var last := |xs| - 1;
      GroupIntoFailure(pre, decide, rec);
      assert forall i :: 0 <= i < |pre| ==> xs[i] == pre[i];
      assert GroupInto(xs, decide, rec).Failure?
        <==> GroupInto(pre, decide, rec).Failure? || decide(xs[last]).Fail?;
      assert SomeFails(xs, decide) <==> SomeFails(pre, decide) || decide(xs[last]).Fail? by {
        if SomeFails(xs, decide) && !decide(xs[last]).Fail? {
          var j :| 0 <= j < |xs| && decide(xs[j]).Fail?;
          assert j < |pre| && decide(pre[j]).Fail?;
        }
      }
    }
  }

  /** When the loop fails, it reports the message of the first failing item. */
  lemma {:induction false} GroupIntoFirstFailure<T, R>(xs: seq<T>, decide: T -> Decision, rec: T -> R, i: nat)
    requires FirstFailureAt(xs, decide, i)
    ensures GroupInto(xs, decide, rec) == Failure(decide(xs[i]).message)
    decreases |xs|
  {
    var pre := xs[..|xs| - 1];
    FirstFailurePrefix(xs, decide, i);
    if i < |xs| - 1 {
      GroupIntoFirstFailure(pre, decide, rec, i);
    } else {
      GroupIntoFailure(pre, decide, rec);
    }
  }

  /** Dropping the last item keeps a first failure before it, and leaves no failure if it was the last. */
  lemma FirstFailurePrefix<T>(xs: seq<T>, decide: T -> Decision, i: nat)
    requires FirstFailureAt(xs, decide, i)
    ensures i < |xs| - 1 ==> FirstFailureAt(xs[..|xs| - 1], decide, i)
    ensures i == |xs| - 1 ==> !SomeFails(xs[..|xs| - 1], decide)
  {
    var pre := xs[..|xs| - 1];
    assert forall j :: 0 <= j < |pre| ==> xs[j] == pre[j];
  }

  /** On success, the group names are unique and in the order of their first placement. */
  lemma {:induction false} GroupIntoKeys<T, R>(xs: seq<T>, decide: T -> Decision, rec: T -> R)
    requires GroupInto(xs, decide, rec).Success?
    ensures UniqueKeys(GroupInto(xs, decide, rec).value)
    ensures Keys(GroupInto(xs, decide, rec).value) == Dedup(Placed(xs, decide))
    decreases |xs|
  {
    if |xs| > 0 {
      var pre := xs[..|xs| - 1];
      var x := xs[|xs| - 1];
      GroupIntoKeys(pre, decide, rec);
      var g := GroupInto(pre, decide, rec).value;
      match decide(x)
      case Skip =>
        assert Placed(xs, decide) == Placed(pre, decide);
      case Place(k0) =>
        assert GroupInto(xs, decide, rec).value == Push(g, k0, rec(x));
        assert Placed(xs, decide) == Placed(pre, decide) + [k0];
        PushKeysDedup(g, Placed(pre, decide), k0, rec(x));
    }
  }

  /** On success, the total number of records is the number of placed items. */
  lemma {:induction false} GroupIntoTotal<T, R>(xs: seq<T>, decide: T -> Decision, rec: T -> R)
    requires GroupInto(xs, decide, rec).Success?
    ensures TotalSize(GroupInto(xs, decide, rec).value) == |Placed(xs, decide)|
    decreases |xs|
  {
    if |xs| > 0 {
      var pre := xs[..|xs| - 1];
      var x := xs[|xs| - 1];
      GroupIntoTotal(pre, decide, rec);
      match decide(x)
      case Skip =>
      case Place(k0) =>
        TotalSizePush(GroupInto(pre, decide, rec).value, k0, rec(x));
    }
  }

  /** Lookup after one push, for a group described by its expected members. */
  lemma LookupPush<R>(g: AList<seq<R>>, k0: string, y: R, k: string, m: seq<R>)
    requires Lookup(g, k) == if m == [] then None else Some(m)
    ensures var m' := m + (if k0 == k then [y] else []);
      Lookup(Push(g, k0, y), k) == if m' == [] then None else Some(m')
  {
    if k0 == k {
      if m == [] {
        assert k !in Keys(g);
        assert m + [y] == [y];
      } else {
        assert k in Keys(g);
      }
    } else {
      assert m + [] == m;
    }
  }

  /**
   * On success, each name placed at least once holds exactly `Members` for that name,
   * and no other name is present.
   */
  lemma {:induction false} GroupIntoLookup<T, R>(xs: seq<T>, decide: T -> Decision, rec: T -> R, k: string)
    requires GroupInto(xs, decide, rec).Success?
    ensures Lookup(GroupInto(xs, decide, rec).value, k) ==
      if Members(xs, decide, rec, k) == [] then None else Some(Members(xs, decide, rec, k))
    decreases |xs|
  {
    if |xs| > 0 {
      var pre := xs[..|xs| - 1];
      var x := xs[|xs| - 1];
      GroupIntoLookup(pre, decide, rec, k);
      var g := GroupInto(pre, decide, rec).value;
      var m := Members(pre, decide, rec, k);
      match decide(x)
      case Skip =>
        assert GroupInto(xs, decide, rec).value == g;
        assert Members(xs, decide, rec, k) == m + [];
        assert m + [] == m;
      case Place(k0) =>
        LookupPush(g, k0, rec(x), k, m);
    }
  }

  /**
   * On success, the groups are exactly the non-empty `Members`: each name placed at least
   * once holds the records of its items in item order, no other name is present, names are
   * unique and listed in the order of their first placement, and the total number of
   * records is the number of placed items.
   */
  lemma GroupIntoContents<T, R>(xs: seq<T>, decide: T -> Decision, rec: T -> R)
    requires GroupInto(xs, decide, rec).Success?
    ensures var g := GroupInto(xs, decide, rec).value;
      && UniqueKeys(g)
      && Keys(g) == Dedup(Placed(xs, decide))
      && TotalSize(g) == |Placed(xs, decide)|
      && forall k :: Lookup(g, k) ==
           if Members(xs, decide, rec, k) == [] then None else Some(Members(xs, decide, rec, k))
  {
    GroupIntoKeys(xs, decide, rec);
    GroupIntoTotal(xs, decide, rec);
    forall k {
      GroupIntoLookup(xs, decide, rec, k);
    }
  }

  /** On success, no group is empty. */
  lemma GroupIntoNoEmptyGroup<T, R>(xs: seq<T>, decide: T -> Decision, rec: T -> R)
    requires GroupInto(xs, decide, rec).Success?
    ensures forall i :: 0 <= i < |GroupInto(xs, decide, rec).value| ==> |GroupInto(xs, decide, rec).value[i].1| > 0
  {
    var g := GroupInto(xs, decide, rec).value;
    GroupIntoContents(xs, decide, rec);
    forall i | 0 <= i < |g|
      ensures |g[i].1| > 0
    {
      LookupAt(g, i);
    }
  }
}

=== FILE: labels.dfy ===
/** Resolution of the working label set (`getLabels` in popup.js). */
module Labels {
  import opened Wrappers
  import opened Seqs
  import opened Text

  /** The seven general-purpose categories used when no label is available. */
  const DefaultLabels: seq<string> :=
    ["Work", "Social", "Entertainment", "Shopping", "News", "Finance", "Development"]

  lemma DefaultLabelsWellFormed()
    ensures |DefaultLabels| == 7
    ensures NoDups(DefaultLabels)
    ensures forall i :: 0 <= i < |DefaultLabels| ==> DefaultLabels[i] != []
  {
  }

  /** The non-empty strings of `xs`, in order, as kept from label pieces and host group titles. */
  function NonEmpty(xs: seq<string>): seq<string>
    decreases |xs|
  {
    if |xs| == 0 then []
    else (if xs[0] == [] then [] else [xs[0]]) + NonEmpty(xs[1..])
  }

  /**
   * The filter keeps exactly the non-empty strings: everything kept is non-empty and from
   * the input, every non-empty input string is kept, and the result is empty exactly when
   * every input string is.
   */
  lemma {:induction false} NonEmptySpec(xs: seq<string>)
    ensures |NonEmpty(xs)| <= |xs|
    ensures forall i :: 0 <= i < |NonEmpty(xs)| ==> NonEmpty(xs)[i] != [] && NonEmpty(xs)[i] in xs
    ensures forall j :: 0 <= j < |xs| && xs[j] != [] ==> xs[j] in NonEmpty(xs)
    ensures NonEmpty(xs) == [] <==> forall j :: 0 <= j < |xs| ==> xs[j] == []
    decreases |xs|
  {
    if |xs| > 0 {
      var rest := NonEmpty(xs[1..]);
      NonEmptySpec(xs[1..]);
      var h := if xs[0] == [] then [] else [xs[0]];
      var r := NonEmpty(xs);
      assert r == h + rest;
      forall i | 0 <= i < |r|
        ensures r[i] != [] && r[i] in xs
      {
        if i < |h| {
          assert r[i] == xs[0];
        } else {
          assert r[i] == rest[i - |h|];
        }
      }
      forall j | 0 <= j < |xs| && xs[j] != []
        ensures xs[j] in r
      {
        if j == 0 {
          assert r[0] == xs[0];
        } else {
          assert xs[j] == xs[1..][j - 1];
        }
      }
      if r != [] {
        assert r[0] != [] && r[0] in xs;
      }
    }
  }

  /**
   * The filter distributes over concatenation: it keeps the kept strings of each part, in
   * order and with their repeats, so it drops nothing but empty strings and never reorders.
   */
  lemma {:induction false} NonEmptyAppend(xs: seq<string>, ys: seq<string>)
    ensures NonEmpty(xs + ys) == NonEmpty(xs) + NonEmpty(ys)
    decreases |xs|
  {
    if |xs| == 0 {
      assert xs + ys == ys;
    } else {
      assert (xs + ys)[0] == xs[0];
      assert (xs + ys)[1..] == xs[1..] + ys;
      NonEmptyAppend(xs[1..], ys);
    }
  }

  /** A sequence of non-empty strings passes the filter unchanged, repeats included. */
  lemma {:induction false} NonEmptyKeepsAll(xs: seq<string>)
    requires forall j :: 0 <= j < |xs| ==> xs[j] != []
    ensures NonEmpty(xs) == xs
    decreases |xs|
  {
    if |xs| > 0 {
      assert forall j :: 0 <= j < |xs[1..]| ==> xs[1..][j] == xs[j + 1];
      NonEmptyKeepsAll(xs[1..]);
      assert [xs[0]] + xs[1..] == xs;
    }
  }

  /** Each piece trimmed. */
  function TrimAll(pieces: seq<string>): (r: seq<string>)
    ensures |r| == |pieces|
    ensures forall i :: 0 <= i < |r| ==> r[i] == Trim(pieces[i])
  {
    if |pieces| == 0 then [] else [Trim(pieces[0])] + TrimAll(pieces[1..])
  }

  /** The labels typed by the user: the comma-separated pieces, trimmed, empties dropped. */
  function CustomLabels(input: string): seq<string> {
    NonEmpty(TrimAll(Split(input, ',')))
  }

  /**
   * Each user label is a non-empty trimmed piece of the input, and every piece that is not
   * all whitespace gives a label, trimmed.
   */
  lemma CustomLabelsSpec(input: string)
    ensures forall i :: 0 <= i < |CustomLabels(input)| ==>
      && CustomLabels(input)[i] != []
      && IsTrimmed(CustomLabels(input)[i])
      && CustomLabels(input)[i] in TrimAll(Split(input, ','))
    ensures forall j :: 0 <= j < |Split(input, ',')| && !AllWhitespace(Split(input, ',')[j]) ==>
      Trim(Split(input, ',')[j]) in CustomLabels(input)
  {
    var trimmed := TrimAll(Split(input, ','));
    var r := CustomLabels(input);
    NonEmptySpec(trimmed);
    forall i | 0 <= i < |r|
      ensures r[i] != [] && IsTrimmed(r[i]) && r[i] in trimmed
    {
      var j :| 0 <= j < |trimmed| && trimmed[j] == r[i];
    }
    forall j | 0 <= j < |Split(input, ',')| && !AllWhitespace(Split(input, ',')[j])
      ensures Trim(Split(input, ',')[j]) in r
    {
      assert trimmed[j] == Trim(Split(input, ',')[j]) != [];
    }
  }

  /**
   * `getLabels`: the user's labels followed by the titles of existing host groups,
   * deduplicated in first-seen order, or the defaults when that is empty. `hostTitles`
   * is `None` when the host lookup threw; then only the user's labels are used, and they
   * are not deduplicated.
   */
  function GetLabels(input: string, hostTitles: Option<seq<string>>): seq<string> {
    var custom := CustomLabels(input);
    match hostTitles
    case Some(titles) =>
      var merged := Dedup(custom + NonEmpty(titles));
      if |merged| > 0 then merged else DefaultLabels
    case None =>
      if |custom| > 0 then custom else DefaultLabels
  }

  /**
   * The label set is never empty and holds no empty label; it has no repeats whenever the
   * host lookup succeeded; and every label is a user label, a host group title or a default.
   */
  lemma GetLabelsSpec(input: string, hostTitles: Option<seq<string>>)
    ensures |GetLabels(input, hostTitles)| > 0
    ensures forall i :: 0 <= i < |GetLabels(input, hostTitles)| ==> GetLabels(input, hostTitles)[i] != []
    ensures hostTitles.Some? ==> NoDups(GetLabels(input, hostTitles))
    ensures forall i :: 0 <= i < |GetLabels(input, hostTitles)| ==>
      || GetLabels(input, hostTitles)[i] in CustomLabels(input)
      || (hostTitles.Some? && GetLabels(input, hostTitles)[i] in hostTitles.value)
      || GetLabels(input, hostTitles)[i] in DefaultLabels
  {
    DefaultLabelsWellFormed();
    CustomLabelsSpec(input);
    var custom := CustomLabels(input);
    var r := GetLabels(input, hostTitles);
    if hostTitles.Some? {
      var titles := hostTitles.value;
      var t := NonEmpty(titles);
      NonEmptySpec(titles);
      var all := custom + t;
      var merged := Dedup(all);
      if |merged| > 0 {
        assert r == merged;
        forall i | 0 <= i < |r|
          ensures r[i] != [] && (r[i] in custom || r[i] in titles)
        {
          var k :| 0 <= k < |all| && all[k] == r[i];
          if k >= |custom| {
            assert all[k] == t[k - |custom|];
          }
        }
      }
    }
  }

  /**
   * When the host lookup succeeds and some label is available, the result lists every
   * user label and every non-empty host title exactly once, the user's labels first, each
   * value at its first occurrence.
   */
  lemma GetLabelsMerged(input: string, titles: seq<string>)
    requires |CustomLabels(input) + NonEmpty(titles)| > 0
    ensures GetLabels(input, Some(titles)) == Dedup(CustomLabels(input) + NonEmpty(titles))
    ensures |Dedup(CustomLabels(input))| <= |GetLabels(input, Some(titles))|
    ensures GetLabels(input, Some(titles))[..|Dedup(CustomLabels(input))|] == Dedup(CustomLabels(input))
    ensures forall i :: 0 <= i < |CustomLabels(input)| ==> CustomLabels(input)[i] in GetLabels(input, Some(titles))
    ensures forall j :: 0 <= j < |titles| && titles[j] != [] ==> titles[j] in GetLabels(input, Some(titles))
  {
    var custom := CustomLabels(input);
    var t := NonEmpty(titles);
    var all := custom + t;
    var r := Dedup(all);
    assert all[0] in r;
    assert GetLabels(input, Some(titles)) == r;
    DedupPrefix(custom, t);
    forall i | 0 <= i < |custom|
      ensures custom[i] in r
    {
      assert all[i] == custom[i];
    }
    NonEmptySpec(titles);
    forall j | 0 <= j < |titles| && titles[j] != []
      ensures titles[j] in r
    {
      var k :| 0 <= k < |t| && t[k] == titles[j];
      assert all[|custom| + k] == titles[j];
    }
  }

  /** With no user label and no non-empty host title, the defaults are used. */
  lemma GetLabelsDefault(input: string, titles: seq<string>)
    requires forall j :: 0 <= j < |titles| ==> titles[j] == []
    requires forall j :: 0 <= j < |Split(input, ',')| ==> AllWhitespace(Split(input, ',')[j])
    ensures GetLabels(input, Some(titles)) == DefaultLabels
    ensures GetLabels(input, None) == DefaultLabels
  {
    var pieces := Split(input, ',');
    var trimmed := TrimAll(pieces);
    forall j | 0 <= j < |trimmed|
      ensures trimmed[j] == []
    {
      assert AllWhitespace(pieces[j]);
    }
    NonEmptySpec(trimmed);
    NonEmptySpec(titles);
    assert CustomLabels(input) + NonEmpty(titles) == [];
  }

  /** When the host lookup throws, the user's labels are used as they are, or the defaults. */
  lemma GetLabelsHostFailed(input: string)
    ensures GetLabels(input, None) ==
      if |CustomLabels(input)| > 0 then CustomLabels(input) else DefaultLabels
    ensures |CustomLabels(input)| > 0 ==> forall i :: 0 <= i < |GetLabels(input, None)| ==>
      IsTrimmed(GetLabels(input, None)[i])
  {
    CustomLabelsSpec(input);
  }

  lemma SplitRepeated()
    ensures Split("a,a", ',') == ["a", "a"]
  {
    var s := "a,a";
    assert s[..1] == "a";
    Seqs.FirstIndexUnique(s, ',', 1);
    assert s[2..] == "a";
    assert ',' !in "a";
    assert Split("a", ',') == ["a"];
  }

  lemma CleanRepeated()
    ensures NonEmpty(TrimAll(["a", "a"])) == ["a", "a"]
  {
    assert Trim("a") == "a";
    assert TrimAll(["a", "a"]) == ["a", "a"];
    assert NonEmpty(["a"]) == ["a"];
  }

  /** The user input `a,a` yields the label `a` twice. */
  lemma CustomLabelsKeepRepeats()
    ensures CustomLabels("a,a") == ["a", "a"]
  {
    SplitRepeated();
    CleanRepeated();
  }

  /** Without the host lookup, a label the user typed twice is returned twice. */
  lemma GetLabelsHostFailedKeepsRepeats()
    ensures GetLabels("a,a", None) == ["a", "a"]
    ensures !NoDups(GetLabels("a,a", None))
  {
    CustomLabelsKeepRepeats();
    var r := GetLabels("a,a", None);
    assert r[0] == r[1];
  }

  /**
   * `getLabels` with repeats removed on the exception path too, as the label set is meant
   * to be: identical when the host lookup succeeds, deduplicated user labels (or the
   * defaults) when it throws.
   */
  function GetLabelsDeduped(input: string, hostTitles: Option<seq<string>>): seq<string> {
    match hostTitles
    case Some(_) => GetLabels(input, hostTitles)
    case None =>
      var labels := Dedup(CustomLabels(input));
      if |labels| > 0 then labels else DefaultLabels
  }

  /**
   * The corrected label set is never empty, holds no empty label and has no repeats on
   * every path; it differs from `getLabels` only by removing the repeats of the exception
   * path.
   */
  lemma GetLabelsDedupedSpec(input: string, hostTitles: Option<seq<string>>)
    ensures |GetLabelsDeduped(input, hostTitles)| > 0
    ensures NoDups(GetLabelsDeduped(input, hostTitles))
    ensures forall i :: 0 <= i < |GetLabelsDeduped(input, hostTitles)| ==> GetLabelsDeduped(input, hostTitles)[i] != []
    ensures hostTitles.Some? ==> GetLabelsDeduped(input, hostTitles) == GetLabels(input, hostTitles)
    ensures hostTitles.None? ==> GetLabelsDeduped(input, hostTitles) == Dedup(GetLabels(input, None))
  {
    DefaultLabelsWellFormed();
    if hostTitles.Some? {
      GetLabelsSpec(input, hostTitles);
    } else {
      var custom := CustomLabels(input);
      var labels := Dedup(custom);
      if |custom| > 0 {
        assert custom[0] in labels;
        CustomLabelsSpec(input);
        forall i | 0 <= i < |labels|
          ensures labels[i] != []
        {
          var k :| 0 <= k < |custom| && custom[k] == labels[i];
        }
      } else {
        DedupOfNoDups(DefaultLabels);
      }
    }
  }
}

=== FILE: popup_grouping.dfy ===
/** The grouping loop of the popup's "group" button handler (popup.js). */
module PopupGrouping {
  import opened Wrappers
  import opened AssocList
  import opened Text
  import opened Tabs
  import opened Grouping

  /** Tabs whose URL starts with this prefix are browser-internal and never grouped. */
  const InternalScheme: string := "chrome://"

  predicate IsInternal(t: Tab) {
    StartsWith(t.url, InternalScheme)
  }

  /** The text the popup classifies: title and URL separated by a space. */
  function PopupText(t: Tab): string {
    t.title + " " + t.url
  }

  /** One iteration of the loop: skip internal tabs, else place under the top label. */
  function Decide(labels: seq<string>, clf: Classifier, t: Tab): Decision {
    if IsInternal(t) then Skip
    else
      match clf(PopupText(t), labels)
      case Top(l) => Place(l)
      case Threw(m) => Fail(m)
  }

  /** `Decide` as the function value the loop is given. */
  function DecideFn(labels: seq<string>, clf: Classifier): Tab -> Decision {
    t => Decide(labels, clf, t)
  }

  /** The popup stores each tab unchanged (`{id, title, url}`). */
  function Keep(): Tab -> Tab {
    t => t
  }

  /**
   * The loop: the groups built from `tabs` in order, storing the whole tab, or the
   * message of the first exception the classifier threw.
   */
  function GroupTabs(tabs: seq<Tab>, labels: seq<string>, clf: Classifier): Result<AList<seq<Tab>>, string> {
    GroupInto(tabs, DecideFn(labels, clf), Keep())
  }

  /** The tabs the loop does not skip. */
  function NonInternal(tabs: seq<Tab>): (r: seq<Tab>)
    ensures forall t :: t in r <==> t in tabs && !IsInternal(t)
  {
    if |tabs| == 0 then []
    else
      var pre := tabs[..|tabs| - 1];
      var last := tabs[|tabs| - 1];
      assert tabs == pre + [last];
      NonInternal(pre) + (if IsInternal(last) then [] else [last])
  }

  /** Without failures, one group name is placed per non-internal tab. */
  lemma {:induction false} PlacedCount(tabs: seq<Tab>, labels: seq<string>, clf: Classifier)
    requires !SomeFails(tabs, DecideFn(labels, clf))
    ensures |Placed(tabs, DecideFn(labels, clf))| == |NonInternal(tabs)|
    decreases |tabs|
  {
    if |tabs| > 0 {
      var pre := tabs[..|tabs| - 1];
      assert forall i :: 0 <= i < |pre| ==> tabs[i] == pre[i];
      PlacedCount(pre, labels, clf);
      assert !DecideFn(labels, clf)(tabs[|tabs| - 1]).Fail?;
    }
  }

  /** The loop fails exactly when the classifier throws on some non-internal tab. */
  lemma GroupTabsFailure(tabs: seq<Tab>, labels: seq<string>, clf: Classifier)
    ensures GroupTabs(tabs, labels, clf).Failure? <==>
      exists i :: 0 <= i < |tabs| && !IsInternal(tabs[i]) && clf(PopupText(tabs[i]), labels).Threw?
  {
    GroupIntoFailure(tabs, DecideFn(labels, clf), Keep());
    assert forall i :: 0 <= i < |tabs| ==>
      (DecideFn(labels, clf)(tabs[i]).Fail? <==> !IsInternal(tabs[i]) && clf(PopupText(tabs[i]), labels).Threw?);
  }

  /** On success, names are unique, no group is empty and the groups hold every non-internal tab. */
  lemma GroupTabsShape(tabs: seq<Tab>, labels: seq<string>, clf: Classifier)
    requires GroupTabs(tabs, labels, clf).Success?
    ensures UniqueKeys(GroupTabs(tabs, labels, clf).value)
    ensures TotalSize(GroupTabs(tabs, labels, clf).value) == |NonInternal(tabs)|
    ensures forall i :: 0 <= i < |GroupTabs(tabs, labels, clf).value| ==> |GroupTabs(tabs, labels, clf).value[i].1| > 0
  {
    GroupIntoContents(tabs, DecideFn(labels, clf), Keep());
    GroupIntoNoEmptyGroup(tabs, DecideFn(labels, clf), Keep());
    GroupIntoFailure(tabs, DecideFn(labels, clf), Keep());
    PlacedCount(tabs, labels, clf);
  }

  /**
   * On success, each group lists, in input order, exactly the non-internal tabs whose top
   * label is its name, and a name is present exactly when some tab got it as top label.
   */
  lemma GroupTabsMembers(tabs: seq<Tab>, labels: seq<string>, clf: Classifier, k: string)
    requires GroupTabs(tabs, labels, clf).Success?
    ensures Lookup(GroupTabs(tabs, labels, clf).value, k) ==
      if Members(tabs, DecideFn(labels, clf), Keep(), k) == [] then None
      else Some(Members(tabs, DecideFn(labels, clf), Keep(), k))
  {
    GroupIntoLookup(tabs, DecideFn(labels, clf), Keep(), k);
  }

  /** On success, every non-internal tab is in the group named by its top label. */
  lemma GroupTabsCovers(tabs: seq<Tab>, labels: seq<string>, clf: Classifier, i: nat)
    requires GroupTabs(tabs, labels, clf).Success?
    requires i < |tabs| && !IsInternal(tabs[i])
    ensures clf(PopupText(tabs[i]), labels).Top?
    ensures var g := GroupTabs(tabs, labels, clf).value;
      var k := clf(PopupText(tabs[i]), labels).topLabel;
      Lookup(g, k).Some? && tabs[i] in Lookup(g, k).value
  {
    GroupIntoFailure(tabs, DecideFn(labels, clf), Keep());
    assert !DecideFn(labels, clf)(tabs[i]).Fail?;
    assert clf(PopupText(tabs[i]), labels).Top?;
    var k := clf(PopupText(tabs[i]), labels).topLabel;
    MembersSpec(tabs, DecideFn(labels, clf), Keep(), k);
    GroupIntoLookup(tabs, DecideFn(labels, clf), Keep(), k);
  }

  /**
   * On success, every tab in a group is a non-internal input tab whose top label is that
   * group's name: internal tabs are in no group, and no tab is in two groups.
   */
  lemma GroupTabsSound(tabs: seq<Tab>, labels: seq<string>, clf: Classifier, i: nat, t: Tab)
    requires GroupTabs(tabs, labels, clf).Success?
    requires i < |GroupTabs(tabs, labels, clf).value|
    requires t in GroupTabs(tabs, labels, clf).value[i].1
    ensures t in tabs && !IsInternal(t)
    ensures clf(PopupText(t), labels) == Top(GroupTabs(tabs, labels, clf).value[i].0)
  {
    var g := GroupTabs(tabs, labels, clf).value;
    GroupIntoKeys(tabs, DecideFn(labels, clf), Keep());
    LookupAt(g, i);
    GroupIntoLookup(tabs, DecideFn(labels, clf), Keep(), g[i].0);
    MembersSpec(tabs, DecideFn(labels, clf), Keep(), g[i].0);
  }
}

=== FILE: seqs.dfy ===
/** Sequence helpers: duplicate-freedom and first-seen deduplication (JavaScript `Set` order). */
module Seqs {

  /** No value occurs twice in `s`. */
  predicate NoDups<T(==)>(s: seq<T>) {
    forall i, j :: 0 <= i < j < |s| ==> s[i] != s[j]
  }

  /** The position of the first occurrence of `x` in `xs`. */
  function FirstIndex<T(==)>(xs: seq<T>, x: T): (i: nat)
    requires x in xs
    ensures i < |xs| && xs[i] == x
    ensures x !in xs[..i]
  {
    if xs[0] == x then 0
    else
      var j := FirstIndex(xs[1..], x);
      assert xs[..j + 1] == [xs[0]] + xs[1..][..j];
      j + 1
  }

  /** Any position holding `x` with no earlier `x` is the first index. */
  lemma FirstIndexUnique<T>(xs: seq<T>, x: T, p: nat)
    requires p < |xs| && xs[p] == x && x !in xs[..p]
    ensures FirstIndex(xs, x) == p
  {
    var f := FirstIndex(xs, x);
    assert forall q :: 0 <= q < p ==> xs[q] == xs[..p][q];
    assert forall q :: 0 <= q < f ==> xs[q] == xs[..f][q];
  }

  /** Extending a sequence does not move the first occurrence of a value it already held. */
  lemma FirstIndexExtend<T>(xs: seq<T>, ys: seq<T>, x: T)
    requires x in xs
    ensures x in xs + ys
    ensures FirstIndex(xs + ys, x) == FirstIndex(xs, x)
  {
    var p := FirstIndex(xs, x);
    assert (xs + ys)[..p] == xs[..p];
    FirstIndexUnique(xs + ys, x, p);
  }

  /**
   * The values of `xs` with repeats removed, each kept at its first occurrence: the order
   * of `[...new Set(xs)]` in JavaScript.
   */
  function Dedup<T(==)>(xs: seq<T>): (r: seq<T>)
    ensures NoDups(r)
    ensures forall i :: 0 <= i < |r| ==> r[i] in xs
    ensures forall i :: 0 <= i < |xs| ==> xs[i] in r
    ensures |r| <= |xs|
    decreases |xs|
  {
    if |xs| == 0 then []
    else
      var d := Dedup(xs[..|xs| - 1]);
      var x := xs[|xs| - 1];
      assert xs == xs[..|xs| - 1] + [x];
      if x in d then d else d + [x]
  }

  /** `r` lists values of `xs` in strictly increasing order of their first occurrence. */
  ghost predicate InFirstSeenOrder<T>(xs: seq<T>, r: seq<T>)
    requires forall i :: 0 <= i < |r| ==> r[i] in xs
  {
    forall i, j :: 0 <= i < j < |r| ==> FirstIndex(xs, r[i]) < FirstIndex(xs, r[j])
  }

  /** Deduplication lists values in the order of their first occurrence in the input. */
  lemma {:induction false} DedupFirstSeenOrder<T>(xs: seq<T>)
    ensures InFirstSeenOrder(xs, Dedup(xs))
    decreases |xs|
  {
    if |xs| > 0 {
      var pre := xs[..|xs| - 1];
      var x := xs[|xs| - 1];
      assert xs == pre + [x];
      DedupFirstSeenOrder(pre);
      if x !in Dedup(pre) {
        DedupAppendOrder(pre, x);
      } else {
        DedupRepeatOrder(pre, x);
      }
    }
  }

  /** Appending a value already seen leaves the deduplication, and its order, as they were. */
  lemma DedupRepeatOrder<T>(pre: seq<T>, x: T)
    requires InFirstSeenOrder(pre, Dedup(pre))
    requires x in Dedup(pre)
    ensures InFirstSeenOrder(pre + [x], Dedup(pre + [x]))
  {
    var xs := pre + [x];
    assert Dedup(xs) == Dedup(pre) by {
      assert xs[..|xs| - 1] == pre;
    }
    FirstSeenOrderExtend(pre, [x], Dedup(pre));
  }

  /** First-seen order with respect to a prefix survives extending the sequence. */
  lemma FirstSeenOrderExtend<T>(xs: seq<T>, ys: seq<T>, r: seq<T>)
    requires forall i :: 0 <= i < |r| ==> r[i] in xs
    requires InFirstSeenOrder(xs, r)
    ensures forall i :: 0 <= i < |r| ==> r[i] in xs + ys
    ensures InFirstSeenOrder(xs + ys, r)
  {
    forall i | 0 <= i < |r|
      ensures FirstIndex(xs + ys, r[i]) == FirstIndex(xs, r[i])
    {
      FirstIndexExtend(xs, ys, r[i]);
    }
  }

  /** Appending a value that is new to the sequence puts it last in first-seen order. */
  lemma DedupAppendOrder<T>(pre: seq<T>, x: T)
    requires InFirstSeenOrder(pre, Dedup(pre))
    requires x !in Dedup(pre)
    ensures InFirstSeenOrder(pre + [x], Dedup(pre + [x]))
  {
    var xs := pre + [x];
    var d := Dedup(pre);
    assert Dedup(xs) == d + [x] by {
      assert xs[..|xs| - 1] == pre;
    }
    FirstSeenOrderExtend(pre, [x], d);
    assert FirstIndex(xs, x) == |pre| by {
      assert xs[..|pre|] == pre;
      FirstIndexUnique(xs, x, |pre|);
    }
    forall i | 0 <= i < |d|
      ensures FirstIndex(xs, d[i]) < FirstIndex(xs, x)
    {
      FirstIndexExtend(pre, [x], d[i]);
    }
    FirstSeenOrderAppend(xs, d, x);
  }

  /** A value first seen after every value of `r` may be listed after them. */
  lemma FirstSeenOrderAppend<T>(xs: seq<T>, r: seq<T>, x: T)
    requires x in xs && forall i :: 0 <= i < |r| ==> r[i] in xs
    requires InFirstSeenOrder(xs, r)
    requires forall i :: 0 <= i < |r| ==> FirstIndex(xs, r[i]) < FirstIndex(xs, x)
    ensures forall i :: 0 <= i < |r + [x]| ==> (r + [x])[i] in xs
    ensures InFirstSeenOrder(xs, r + [x])
  {
    var r' := r + [x];
    forall i, j | 0 <= i < j < |r'|
      ensures FirstIndex(xs, r'[i]) < FirstIndex(xs, r'[j])
    {
      assert r'[i] == r[i];
      if j < |r| {
        assert r'[j] == r[j];
      }
    }
  }

  /** Deduplicating a longer sequence keeps the deduplication of its prefix as a prefix. */
  lemma {:induction false} DedupPrefix<T>(xs: seq<T>, ys: seq<T>)
    ensures |Dedup(xs)| <= |Dedup(xs + ys)|
    ensures Dedup(xs + ys)[..|Dedup(xs)|] == Dedup(xs)
    decreases |ys|
  {
    if |ys| == 0 {
      assert xs + ys == xs;
    } else {
      var ys' := ys[..|ys| - 1];
      DedupPrefix(xs, ys');
      assert (xs + ys)[..|xs + ys| - 1] == xs + ys';
    }
  }

  /** A sequence that is already duplicate-free is its own deduplication. */
  lemma {:induction false} DedupOfNoDups<T>(xs: seq<T>)
    requires NoDups(xs)
    ensures Dedup(xs) == xs
    decreases |xs|
  {
    if |xs| > 0 {
      var pre := xs[..|xs| - 1];
      var x := xs[|xs| - 1];
      assert forall i :: 0 <= i < |pre| ==> pre[i] == xs[i];
      assert NoDups(pre);
      DedupOfNoDups(pre);
      assert x !in pre;
      assert xs == pre + [x];
    }
  }
}

=== FILE: tabs.dfy ===
/** The values the extension exchanges with the browser and with the classifier. */
module Tabs {

  /** A tab as `chrome.tabs.query` reports it. */
  datatype Tab = Tab(id: int, title: string, url: string)

  /**
   * What one call of the zero-shot classifier yields: the top-ranked label
   * (`result.labels[0]`), or the message of the exception it threw.
   */
  datatype Classification = Top(topLabel: string) | Threw(message: string)

  /**
   * The zero-shot classifier, called with a text and the candidate labels. The model
   * itself is not part of this model: callers receive it as a parameter.
   */
  type Classifier = (string, seq<string>) -> Classification
}

=== FILE: text.dfy ===
/**
 * String operations the extension relies on, with JavaScript semantics:
 * `String.prototype.split` on a one-character separator, `trim`, `startsWith`,
 * and the decimal rendering of a count inside a template literal.
 */
module Text {
  import Seqs

  /**
   * The characters `String.prototype.trim` removes: the ECMAScript WhiteSpace and
   * LineTerminator code points (tab, vertical tab, form feed, space, no-break space,
   * byte-order mark, the Unicode space separators, and the four line terminators).
   */
  predicate IsWhitespace(c: char) {
    || c == '\t' || c == '\U{000B}' || c == '\U{000C}' || c == ' '
    || c == '\U{00A0}' || c == '\U{FEFF}' || c == '\U{1680}'
    || ('\U{2000}' <= c <= '\U{200A}')
    || c == '\U{202F}' || c == '\U{205F}' || c == '\U{3000}'
    || c == '\n' || c == '\r' || c == '\U{2028}' || c == '\U{2029}'
  }

  predicate AllWhitespace(s: string) {
    forall i :: 0 <= i < |s| ==> IsWhitespace(s[i])
  }

  /** Neither end of `s` is whitespace (the empty string qualifies). */
  predicate IsTrimmed(s: string) {
    s != [] ==> !IsWhitespace(s[0]) && !IsWhitespace(s[|s| - 1])
  }

  /** `s` with its leading whitespace removed. */
  function TrimStart(s: string): string
    decreases |s|
  {
    if s != [] && IsWhitespace(s[0]) then TrimStart(s[1..]) else s
  }

  /** Only leading whitespace is removed, and all of it. */
  lemma {:induction false} TrimStartSpec(s: string)
    ensures |TrimStart(s)| <= |s| && TrimStart(s) == s[|s| - |TrimStart(s)|..]
    ensures AllWhitespace(s[..|s| - |TrimStart(s)|])
    ensures TrimStart(s) != [] ==> !IsWhitespace(TrimStart(s)[0])
    decreases |s|
  {
    if s != [] && IsWhitespace(s[0]) {
      TrimStartSpec(s[1..]);
      var n := |s| - |TrimStart(s)|;
      assert s[..n] == [s[0]] + s[1..][..n - 1];
    }
  }

  /** `s` with its trailing whitespace removed. */
  function TrimEnd(s: string): string
    decreases |s|
  {
    if s != [] && IsWhitespace(s[|s| - 1]) then TrimEnd(s[..|s| - 1]) else s
  }

  /** Only trailing whitespace is removed, and all of it. */
  lemma {:induction false} TrimEndSpec(s: string)
    ensures |TrimEnd(s)| <= |s| && TrimEnd(s) == s[..|TrimEnd(s)|]
    ensures AllWhitespace(s[|TrimEnd(s)|..])
    ensures TrimEnd(s) != [] ==> !IsWhitespace(TrimEnd(s)[|TrimEnd(s)| - 1])
    decreases |s|
  {
    if s != [] && IsWhitespace(s[|s| - 1]) {
      TrimEndSpec(s[..|s| - 1]);
      var n := |TrimEnd(s)|;
      assert s[n..] == s[..|s| - 1][n..] + [s[|s| - 1]];
    }
  }

  /** `String.prototype.trim`: a substring of `s` whose ends are not whitespace. */
  function Trim(s: string): (r: string)
    ensures IsTrimmed(r)
    ensures r == [] <==> AllWhitespace(s)
  {
    var t := TrimStart(s);
    TrimStartSpec(s);
    var r := TrimEnd(t);
    TrimEndSpec(t);
    assert r == [] ==> s == s[..|s| - |t|] + t[|r|..];
    assert r != [] ==> r[0] == t[0] && r[0] == s[|s| - |t|];
    r
  }

  /** Surrounding a trimmed string with whitespace and trimming again gives it back. */
  lemma TrimPadded(pre: string, core: string, post: string)
    requires AllWhitespace(pre) && AllWhitespace(post)
    requires core != [] && IsTrimmed(core)
    ensures Trim(pre + core + post) == core
  {
    assert pre + core + post == pre + (core + post);
    assert (core + post)[0] == core[0];
    TrimStartPadded(pre, core + post);
    TrimEndPadded(core, post);
    assert Trim(pre + core + post) == TrimEnd(TrimStart(pre + (core + post)));
  }

  lemma {:induction false} TrimStartPadded(pre: string, rest: string)
    requires AllWhitespace(pre)
    requires rest != [] && !IsWhitespace(rest[0])
    ensures TrimStart(pre + rest) == rest
    decreases |pre|
  {
    if pre != [] {
      assert (pre + rest)[1..] == pre[1..] + rest;
      TrimStartPadded(pre[1..], rest);
    }
  }

  lemma {:induction false} TrimEndPadded(rest: string, post: string)
    requires AllWhitespace(post)
    requires rest != [] && !IsWhitespace(rest[|rest| - 1])
    ensures TrimEnd(rest + post) == rest
    decreases |post|
  {
    if post != [] {
      assert (rest + post)[..|rest + post| - 1] == rest + post[..|post| - 1];
      TrimEndPadded(rest, post[..|post| - 1]);
    }
  }

  /** Trimming is idempotent. */
  lemma TrimIdempotent(s: string)
    ensures Trim(Trim(s)) == Trim(s)
  {
    var r := Trim(s);
    if r == [] {
      assert Trim(r) == r by {
        assert TrimEnd(TrimStart(r)) == [];
      }
    } else {
      assert Trim(r) == r by {
        TrimPadded([], r, []);
        assert [] + r + [] == r;
      }
    }
  }

  /**
   * `s.split(sep)` for a one-character separator: the maximal pieces between separators,
   * keeping empty pieces, so the result is never empty (`"".split(",")` is `[""]`).
   */
  function Split(s: string, sep: char): (r: seq<string>)
    ensures |r| >= 1
    ensures forall i :: 0 <= i < |r| ==> sep !in r[i]
    decreases |s|
  {
    if sep !in s then [s]
    else
      var i := Seqs.FirstIndex(s, sep);
      [s[..i]] + Split(s[i + 1..], sep)
  }

  /** `parts.join(sep)`. */
  function Join(parts: seq<string>, sep: char): string
    requires |parts| >= 1
    decreases |parts|
  {
    if |parts| == 1 then parts[0] else parts[0] + [sep] + Join(parts[1..], sep)
  }

  /** Joining the pieces of a split with the same separator restores the string. */
  lemma {:induction false} JoinSplit(s: string, sep: char)
    ensures Join(Split(s, sep), sep) == s
    decreases |s|
  {
    if sep in s {
      var i := Seqs.FirstIndex(s, sep);
      JoinSplit(s[i + 1..], sep);
      assert Split(s, sep)[1..] == Split(s[i + 1..], sep);
      assert s == s[..i] + [sep] + s[i + 1..];
    }
  }

  /** Splitting a join of separator-free pieces recovers the pieces. */
  lemma {:induction false} SplitJoin(parts: seq<string>, sep: char)
    requires |parts| >= 1
    requires forall i :: 0 <= i < |parts| ==> sep !in parts[i]
    ensures Split(Join(parts, sep), sep) == parts
    decreases |parts|
  {
    if |parts| > 1 {
      SplitCons(parts[0], Join(parts[1..], sep), sep);
      SplitJoin(parts[1..], sep);
      assert parts == [parts[0]] + parts[1..];
    }
  }

  /** A separator-free head followed by the separator splits off as the first piece. */
  lemma SplitCons(head: string, tail: string, sep: char)
    requires sep !in head
    ensures Split(head + [sep] + tail, sep) == [head] + Split(tail, sep)
  {
    var s := head + [sep] + tail;
    assert s[|head|] == sep;
    assert s[..|head|] == head;
    Seqs.FirstIndexUnique(s, sep, |head|);
    assert s[|head| + 1..] == tail;
  }

  /** `s.startsWith(prefix)`. */
  predicate StartsWith(s: string, prefix: string) {
    |prefix| <= |s| && s[..|prefix|] == prefix
  }

  predicate IsDigit(c: char) {
    '0' <= c <= '9'
  }

  function DigitChar(d: nat): (c: char)
    requires d < 10
    ensures IsDigit(c)
  {
    ['0', '1', '2', '3', '4', '5', '6', '7', '8', '9'][d]
  }

  function DigitValue(c: char): nat
    requires IsDigit(c)
  {
    (c as int - '0' as int) as nat
  }

  /** The decimal text JavaScript produces for a non-negative integer below 10^21 in a template literal (larger ones print in exponent form). */
  function NatToString(n: nat): (s: string)
    ensures |s| >= 1
    ensures forall i :: 0 <= i < |s| ==> IsDigit(s[i])
    ensures |s| > 1 ==> s[0] != '0'
  {
    if n < 10 then [DigitChar(n)] else NatToString(n / 10) + [DigitChar(n % 10)]
  }

  /** Reads a string of decimal digits back as a number. */
  function ParseNat(s: string): nat
    requires forall i :: 0 <= i < |s| ==> IsDigit(s[i])
    decreases |s|
  {
    if s == [] then 0 else ParseNat(s[..|s| - 1]) * 10 + DigitValue(s[|s| - 1])
  }

  /** Rendering a count and reading it back gives the count: the rendering is injective. */
  lemma {:induction false} ParseNatToString(n: nat)
    ensures ParseNat(NatToString(n)) == n
    decreases n
  {
    if n < 10 {
      DigitRoundTrip(n);
    } else {
      ParseNatToString(n / 10);
      var s := NatToString(n);
      assert s[..|s| - 1] == NatToString(n / 10);
      assert s[|s| - 1] == DigitChar(n % 10);
      DigitRoundTrip(n % 10);
    }
  }

  /** A digit's character reads back as the digit. */
  lemma DigitRoundTrip(d: nat)
    requires d < 10
    ensures DigitValue(DigitChar(d)) == d
  {
  }

  /** Distinct counts render as distinct strings. */
  lemma NatToStringInjective(m: nat, n: nat)
    requires NatToString(m) == NatToString(n)
    ensures m == n
  {
    ParseNatToString(m);
    ParseNatToString(n);
  }

  /**
   * A separator that occurs in neither left part splits a string in one way only: equal
   * strings `x + [c] + y` and `x' + [c] + y'` have equal left and right parts.
   */
  lemma SeparatedUnique(x: string, y: string, x': string, y': string, c: char)
    requires c !in x && c !in x'
    requires x + [c] + y == x' + [c] + y'
    ensures x == x' && y == y'
  {
    var s := x + [c] + y;
    assert forall i :: 0 <= i < |x| ==> s[i] == x[i] != c;
    assert forall i :: 0 <= i < |x'| ==> s[i] == x'[i] != c;
    assert s[|x|] == c && s[|x'|] == c;
    assert |x| == |x'|;
    assert x == s[..|x|] == x';
    assert y == s[|x| + 1..] == y';
  }
}

=== FILE: worker.dfy ===
/**
 * The classification worker (worker.js): on a message carrying tabs and labels it loads the
 * classifier once (caching it for later messages), classifies every tab in order, and
 * posts progress messages followed by exactly one `complete` or `error` message. The
 * model library is not part of this model: the load is described by a `LoadAttempt` and the
 * classifier is a parameter.
 */
module Worker {
  import opened Wrappers
  import opened AssocList
  import opened Text
  import opened Tabs
  import opened Grouping

  /** What the worker stores per tab: its id and title. */
  datatype TabRecord = TabRecord(id: int, title: string)

  /** The status a progress message reports; `Text` is the string posted. */
  datatype Status =
    | LoadingModel
    | DownloadingModel(percent: nat)
    | ClassifyingTabs
    | Classified(done: nat, total: nat)
  {
    function Text(): string {
      match this
      case LoadingModel => "Loading AI model..."
      case DownloadingModel(pct) => "Downloading model: " + NatToString(pct) + "%"
      case ClassifyingTabs => "Classifying tabs..."
      case Classified(k, n) => "Classified " + NatToString(k) + "/" + NatToString(n) + " tabs"
    }
  }

  /** Distinct statuses post distinct texts, so the popup can tell every progress message apart. */
  lemma StatusTextInjective(a: Status, b: Status)
    requires a.Text() == b.Text()
    ensures a == b
  {
    TextKind(a);
    TextKind(b);
    if a.DownloadingModel? && b.DownloadingModel? {
      DownloadingTextInjective(a.percent, b.percent);
    } else if a.Classified? && b.Classified? {
      ClassifiedTextInjective(a.done, a.total, b.done, b.total);
    }
  }

  /** Characters 0 and 7 of a status text tell which kind of status it is. */
  function Kind(a: Status): (char, char) {
    match a
    case LoadingModel => ('L', ' ')
    case DownloadingModel(_) => ('D', 'd')
    case ClassifyingTabs => ('C', 'y')
    case Classified(_, _) => ('C', 'i')
  }

  lemma TextKind(a: Status)
    ensures |a.Text()| > 7 && (a.Text()[0], a.Text()[7]) == Kind(a)
  {
  }

  lemma DownloadingTextInjective(p: nat, q: nat)
    requires DownloadingModel(p).Text() == DownloadingModel(q).Text()
    ensures p == q
  {
    var pre := "Downloading model: ";
    var t := DownloadingModel(p).Text();
    assert t == pre + NatToString(p) + "%";
    assert t == pre + NatToString(q) + "%";
    assert NatToString(p) == t[|pre|..|t| - 1] == NatToString(q);
    NatToStringInjective(p, q);
  }

  lemma ClassifiedTextInjective(k: nat, n: nat, k': nat, n': nat)
    requires Classified(k, n).Text() == Classified(k', n').Text()
    ensures k == k' && n == n'
  {
    var pre := "Classified ";
    var t := Classified(k, n).Text();
    var rest := t[|pre|..];
    var tail, tail' := NatToString(n) + " tabs", NatToString(n') + " tabs";
    assert rest == NatToString(k) + ['/'] + tail;
    assert rest == NatToString(k') + ['/'] + tail';
    DigitsHaveNoSlash(k);
    DigitsHaveNoSlash(k');
    SeparatedUnique(NatToString(k), tail, NatToString(k'), tail', '/');
    NatToStringInjective(k, k');
    assert NatToString(n) == tail[..|tail| - 5];
    assert NatToString(n') == tail'[..|tail'| - 5];
    NatToStringInjective(n, n');
  }

  /** A rendered count contains no '/'. */
  lemma DigitsHaveNoSlash(n: nat)
    ensures '/' !in NatToString(n)
  {
    var s := NatToString(n);
    forall i | 0 <= i < |s|
      ensures s[i] != '/'
    {
      assert IsDigit(s[i]);
    }
  }

  /** A message posted back to the popup. */
  datatype Event =
    | Progress(status: Status)
    | Complete(groups: AList<seq<TabRecord>>)
    | Error(message: string)
  {
    predicate IsTerminal() {
      Complete? || Error?
    }
  }

  /**
   * How loading the model goes when it is attempted: the download percentages the
   * progress callback reports, then `None` on success or the message of the exception.
   */
  datatype LoadAttempt = LoadAttempt(downloadPercents: seq<nat>, failure: Option<string>)

  /** One progress message per download percentage reported, in order. */
  function DownloadEvents(pcts: seq<nat>): (r: seq<Event>)
    ensures |r| == |pcts|
    ensures forall i :: 0 <= i < |r| ==> r[i] == Progress(DownloadingModel(pcts[i]))
  {
    if |pcts| == 0 then [] else [Progress(DownloadingModel(pcts[0]))] + DownloadEvents(pcts[1..])
  }

  /** The result of `loadClassifier`: the events it posted, its failure, and whether a classifier is cached afterwards. */
  datatype Load = Load(events: seq<Event>, failure: Option<string>, cached: bool)

  /**
   * `loadClassifier`: a cached classifier is returned at once; otherwise "Loading AI model..."
   * is posted, then each download percentage, and the classifier is cached only when the
   * load succeeds.
   */
  function LoadClassifier(cached: bool, attempt: LoadAttempt): Load {
    if cached then Load([], None, true)
    else
      Load([Progress(LoadingModel)] + DownloadEvents(attempt.downloadPercents),
           attempt.failure, attempt.failure.None?)
  }

  /**
   * A cached classifier costs no message and no failure; a first load posts the loading
   * message first and only progress messages, and leaves a classifier cached exactly when
   * it succeeds.
   */
  lemma LoadClassifierSpec(cached: bool, attempt: LoadAttempt)
    ensures cached ==> LoadClassifier(cached, attempt) == Load([], None, true)
    ensures !cached ==> |LoadClassifier(cached, attempt).events| > 0
    ensures !cached ==> LoadClassifier(cached, attempt).events[0] == Progress(LoadingModel)
    ensures !cached ==> LoadClassifier(cached, attempt).failure == attempt.failure
    ensures !cached ==> (LoadClassifier(cached, attempt).cached <==> attempt.failure.None?)
    ensures forall e :: e in LoadClassifier(cached, attempt).events ==> e.Progress?
  {
  }

  /** The text the worker classifies: the title, else the URL, else "Untitled". */
  function WorkerText(t: Tab): string {
    if t.title != [] then t.title else if t.url != [] then t.url else "Untitled"
  }

  /** The classified text is the title, else the URL, else "Untitled", and is never empty. */
  lemma WorkerTextSpec(t: Tab)
    ensures WorkerText(t) != []
    ensures t.title != [] ==> WorkerText(t) == t.title
    ensures t.title == [] && t.url != [] ==> WorkerText(t) == t.url
    ensures t.title == [] && t.url == [] ==> WorkerText(t) == "Untitled"
  {
  }

  function Record(t: Tab): TabRecord {
    TabRecord(t.id, t.title)
  }

  function RecordFn(): Tab -> TabRecord {
    t => Record(t)
  }

  /** The worker skips no tab: each is placed under its top label or fails the run. */
  function WorkerDecide(labels: seq<string>, clf: Classifier, t: Tab): Decision {
    match clf(WorkerText(t), labels)
    case Top(l) => Place(l)
    case Threw(m) => Fail(m)
  }

  function WorkerDecideFn(labels: seq<string>, clf: Classifier): Tab -> Decision {
    t => WorkerDecide(labels, clf, t)
  }

  /** The state of the loop: the progress posted so far and the groups (or the exception). */
  datatype LoopState = LoopState(events: seq<Event>, outcome: Result<AList<seq<TabRecord>>, string>)

  /**
   * The classification loop over `tabs` (the first tabs of a message with `n` tabs): for
   * each tab, classify its text, push its record under the top label and post
   * "Classified i/n tabs"; an exception ends the loop.
   */
  function ClassifyLoop(tabs: seq<Tab>, n: nat, labels: seq<string>, clf: Classifier): LoopState
    decreases |tabs|
  {
    if |tabs| == 0 then LoopState([], Success([]))
    else
      var st := ClassifyLoop(tabs[..|tabs| - 1], n, labels, clf);
      var t := tabs[|tabs| - 1];
      match st.outcome
      case Failure(e) => st
      case Success(g) =>
        match clf(WorkerText(t), labels)
        case Threw(m) => LoopState(st.events, Failure(m))
        case Top(l) => LoopState(st.events + [Progress(Classified(|tabs|, n))], Success(Push(g, l, Record(t))))
  }

  /** The progress messages for tabs 1 to `k` of `n`. */
  predicate CountsUpTo(events: seq<Event>, k: nat, n: nat) {
    |events| == k && forall j :: 0 <= j < k ==> events[j] == Progress(Classified(j + 1, n))
  }

  /** The loop builds exactly the groups of the shared grouping loop, with the worker's decision and record. */
  lemma {:induction false} ClassifyLoopGroups(tabs: seq<Tab>, n: nat, labels: seq<string>, clf: Classifier)
    ensures ClassifyLoop(tabs, n, labels, clf).outcome == GroupInto(tabs, WorkerDecideFn(labels, clf), RecordFn())
    decreases |tabs|
  {
    if |tabs| > 0 {
      ClassifyLoopGroups(tabs[..|tabs| - 1], n, labels, clf);
    }
  }

  /** A successful loop posts one progress message per tab, counting up from 1. */
  lemma {:induction false} ClassifyLoopProgress(tabs: seq<Tab>, n: nat, labels: seq<string>, clf: Classifier)
    requires ClassifyLoop(tabs, n, labels, clf).outcome.Success?
    ensures CountsUpTo(ClassifyLoop(tabs, n, labels, clf).events, |tabs|, n)
    decreases |tabs|
  {
    if |tabs| > 0 {
      var pre := tabs[..|tabs| - 1];
      var st := ClassifyLoop(pre, n, labels, clf);
      var c := clf(WorkerText(tabs[|tabs| - 1]), labels);
      assert st.outcome.Success? && c.Top?;
      var ev := st.events + [Progress(Classified(|tabs|, n))];
      assert ClassifyLoop(tabs, n, labels, clf).events == ev;
      ClassifyLoopProgress(pre, n, labels, clf);
      assert forall j :: 0 <= j < |pre| ==> ev[j] == st.events[j];
    }
  }

  /** A loop that fails at tab `i` has posted progress for tabs 1 to `i` only. */
  lemma {:induction false} ClassifyLoopProgressOnFailure(tabs: seq<Tab>, n: nat, labels: seq<string>, clf: Classifier, i: nat)
    requires FirstFailureAt(tabs, WorkerDecideFn(labels, clf), i)
    ensures CountsUpTo(ClassifyLoop(tabs, n, labels, clf).events, i, n)
    decreases |tabs|
  {
    var pre := tabs[..|tabs| - 1];
    ClassifyLoopStep(tabs, n, labels, clf);
    FirstFailurePrefix(tabs, WorkerDecideFn(labels, clf), i);
    ClassifyLoopFails(pre, n, labels, clf);
    if i < |pre| {
      ClassifyLoopProgressOnFailure(pre, n, labels, clf, i);
    } else {
      WorkerDecideFails(labels, clf, tabs[i]);
      ClassifyLoopProgress(pre, n, labels, clf);
    }
  }

  /** The loop stops with an exception exactly when the classifier throws on some tab. */
  lemma ClassifyLoopFails(tabs: seq<Tab>, n: nat, labels: seq<string>, clf: Classifier)
    ensures ClassifyLoop(tabs, n, labels, clf).outcome.Failure? <==>
      exists i :: 0 <= i < |tabs| && clf(WorkerText(tabs[i]), labels).Threw?
    ensures ClassifyLoop(tabs, n, labels, clf).outcome.Failure? <==> SomeFails(tabs, WorkerDecideFn(labels, clf))
  {
    ClassifyLoopGroups(tabs, n, labels, clf);
    GroupIntoFailure(tabs, WorkerDecideFn(labels, clf), RecordFn());
    forall i | 0 <= i < |tabs|
      ensures WorkerDecideFn(labels, clf)(tabs[i]).Fail? <==> clf(WorkerText(tabs[i]), labels).Threw?
    {
      WorkerDecideFails(labels, clf, tabs[i]);
    }
  }

  /** The worker fails a tab exactly when the classifier throws on its text. */
  lemma WorkerDecideFails(labels: seq<string>, clf: Classifier, t: Tab)
    ensures WorkerDecideFn(labels, clf)(t).Fail? <==> clf(WorkerText(t), labels).Threw?
  {
  }

  /** One turn of the loop: the last tab adds a progress message exactly when it is classified. */
  lemma ClassifyLoopStep(tabs: seq<Tab>, n: nat, labels: seq<string>, clf: Classifier)
    requires |tabs| > 0
    ensures var st := ClassifyLoop(tabs[..|tabs| - 1], n, labels, clf);
      var ok := st.outcome.Success? && clf(WorkerText(tabs[|tabs| - 1]), labels).Top?;
      && (ClassifyLoop(tabs, n, labels, clf).outcome.Success? <==> ok)
      && ClassifyLoop(tabs, n, labels, clf).events
         == if ok then st.events + [Progress(Classified(|tabs|, n))] else st.events
  {
  }

  /** The result of handling one message: the events posted and whether a classifier is cached after. */
  datatype Run = Run(events: seq<Event>, cached: bool)

  /** `self.onmessage`: load, announce, classify, then post `complete` or `error`. */
  function HandleMessage(cached: bool, attempt: LoadAttempt, tabs: seq<Tab>, labels: seq<string>, clf: Classifier): Run {
    var load := LoadClassifier(cached, attempt);
    match load.failure
    case Some(m) => Run(load.events + [Error(m)], load.cached)
    case None =>
      var st := ClassifyLoop(tabs, |tabs|, labels, clf);
      var last := match st.outcome case Success(g) => Complete(g) case Failure(m) => Error(m);
      Run(load.events + [Progress(ClassifyingTabs)] + st.events + [last], true)
  }

  /** Every run ends with exactly one terminal message, and nothing before it is terminal. */
  lemma HandleMessageTerminates(cached: bool, attempt: LoadAttempt, tabs: seq<Tab>, labels: seq<string>, clf: Classifier)
    ensures var ev := HandleMessage(cached, attempt, tabs, labels, clf).events;
      && |ev| > 0
      && ev[|ev| - 1].IsTerminal()
      && forall j :: 0 <= j < |ev| - 1 ==> ev[j].Progress?
  {
    LoadClassifierSpec(cached, attempt);
    ClassifyLoopGroups(tabs, |tabs|, labels, clf);
    var load := LoadClassifier(cached, attempt);
    if load.failure.None? {
      var st := ClassifyLoop(tabs, |tabs|, labels, clf);
      if st.outcome.Failure? {
        GroupIntoFailure(tabs, WorkerDecideFn(labels, clf), RecordFn());
        var i := FirstFailingIndex(tabs, WorkerDecideFn(labels, clf));
        ClassifyLoopProgressOnFailure(tabs, |tabs|, labels, clf, i);
      } else {
        ClassifyLoopProgress(tabs, |tabs|, labels, clf);
      }
    }
  }

  /**
   * When the load succeeds and no classification throws, the run posts the load messages
   * (none when the classifier was cached), "Classifying tabs...", "Classified k/n tabs" for
   * k = 1..n in order, and one `complete` carrying the groups of the shared grouping loop,
   * whose sizes add up to the number of tabs.
   */
  lemma HandleMessageSuccess(cached: bool, attempt: LoadAttempt, tabs: seq<Tab>, labels: seq<string>, clf: Classifier)
    requires LoadClassifier(cached, attempt).failure.None?
    requires forall i :: 0 <= i < |tabs| ==> clf(WorkerText(tabs[i]), labels).Top?
    ensures GroupInto(tabs, WorkerDecideFn(labels, clf), RecordFn()).Success?
    ensures TotalSize(GroupInto(tabs, WorkerDecideFn(labels, clf), RecordFn()).value) == |tabs|
    ensures var ev := HandleMessage(cached, attempt, tabs, labels, clf).events;
      var pre := LoadClassifier(cached, attempt).events;
      && |ev| == |pre| + |tabs| + 2
      && ev[..|pre|] == pre
      && ev[|pre|] == Progress(ClassifyingTabs)
      && CountsUpTo(ev[|pre| + 1..|ev| - 1], |tabs|, |tabs|)
      && ev[|ev| - 1] == Complete(GroupInto(tabs, WorkerDecideFn(labels, clf), RecordFn()).value)
    ensures HandleMessage(cached, attempt, tabs, labels, clf).cached
  {
    var g := GroupInto(tabs, WorkerDecideFn(labels, clf), RecordFn());
    var st := ClassifyLoop(tabs, |tabs|, labels, clf);
    LoopAllClassified(tabs, labels, clf);
    assert st.outcome == g && g.Success?;
    var pre := LoadClassifier(cached, attempt).events;
    var ev := pre + [Progress(ClassifyingTabs)] + st.events + [Complete(g.value)];
    assert HandleMessage(cached, attempt, tabs, labels, clf) == Run(ev, true) by {
      HandleMessageShape(cached, attempt, tabs, labels, clf);
    }
    EventsLayout(pre, st.events, Complete(g.value));
  }

  /** When every tab is classified, the loop succeeds with the shared loop's groups, holding every tab once. */
  lemma LoopAllClassified(tabs: seq<Tab>, labels: seq<string>, clf: Classifier)
    requires forall i :: 0 <= i < |tabs| ==> clf(WorkerText(tabs[i]), labels).Top?
    ensures ClassifyLoop(tabs, |tabs|, labels, clf).outcome == GroupInto(tabs, WorkerDecideFn(labels, clf), RecordFn())
    ensures GroupInto(tabs, WorkerDecideFn(labels, clf), RecordFn()).Success?
    ensures CountsUpTo(ClassifyLoop(tabs, |tabs|, labels, clf).events, |tabs|, |tabs|)
    ensures TotalSize(GroupInto(tabs, WorkerDecideFn(labels, clf), RecordFn()).value) == |tabs|
  {
    var decide := WorkerDecideFn(labels, clf);
    forall j | 0 <= j < |tabs|
      ensures decide(tabs[j]).Place?
    {
      WorkerDecideFails(labels, clf, tabs[j]);
    }
    AllPlaced(tabs, decide);
    ClassifyLoopFails(tabs, |tabs|, labels, clf);
    ClassifyLoopGroups(tabs, |tabs|, labels, clf);
    ClassifyLoopProgress(tabs, |tabs|, labels, clf);
    GroupIntoTotal(tabs, decide, RecordFn());
  }

  /**
   * When every tab is classified, each group holds, in tab order, the `{id, title}` records
   * of exactly the tabs whose top label is its name, and a name is present exactly when
   * some tab got it.
   */
  lemma {:induction false} WorkerGroupsMembers(tabs: seq<Tab>, labels: seq<string>, clf: Classifier, k: string)
    requires forall i :: 0 <= i < |tabs| ==> clf(WorkerText(tabs[i]), labels).Top?
    ensures GroupInto(tabs, WorkerDecideFn(labels, clf), RecordFn()).Success?
    ensures Lookup(GroupInto(tabs, WorkerDecideFn(labels, clf), RecordFn()).value, k) ==
      if Members(tabs, WorkerDecideFn(labels, clf), RecordFn(), k) == [] then None
      else Some(Members(tabs, WorkerDecideFn(labels, clf), RecordFn(), k))
  {
    LoopAllClassified(tabs, labels, clf);
    GroupIntoLookup(tabs, WorkerDecideFn(labels, clf), RecordFn(), k);
  }

  /** When every tab is classified, each tab's record is in the group of its top label. */
  lemma {:induction false} WorkerGroupsCover(tabs: seq<Tab>, labels: seq<string>, clf: Classifier, i: nat)
    requires forall j :: 0 <= j < |tabs| ==> clf(WorkerText(tabs[j]), labels).Top?
    requires i < |tabs|
    ensures GroupInto(tabs, WorkerDecideFn(labels, clf), RecordFn()).Success?
    ensures Lookup(GroupInto(tabs, WorkerDecideFn(labels, clf), RecordFn()).value,
                   clf(WorkerText(tabs[i]), labels).topLabel).Some?
    ensures TabRecord(tabs[i].id, tabs[i].title) in
      Lookup(GroupInto(tabs, WorkerDecideFn(labels, clf), RecordFn()).value,
             clf(WorkerText(tabs[i]), labels).topLabel).value
  {
    var decide := WorkerDecideFn(labels, clf);
    var k := clf(WorkerText(tabs[i]), labels).topLabel;
    assert decide(tabs[i]) == Place(k);
    assert RecordFn()(tabs[i]) == TabRecord(tabs[i].id, tabs[i].title);
    MembersSpec(tabs, decide, RecordFn(), k);
    var ms := Members(tabs, decide, RecordFn(), k);
    assert TabRecord(tabs[i].id, tabs[i].title) in ms;
    WorkerGroupsMembers(tabs, labels, clf, k);
    assert Lookup(GroupInto(tabs, decide, RecordFn()).value, k) == Some(ms);
  }

  /**
   * Once the classifier is loaded, the run is the load messages, "Classifying tabs...", the
   * loop's progress and one terminal message for the loop's outcome, and a classifier stays cached.
   */
  lemma HandleMessageShape(cached: bool, attempt: LoadAttempt, tabs: seq<Tab>, labels: seq<string>, clf: Classifier)
    requires LoadClassifier(cached, attempt).failure.None?
    ensures var st := ClassifyLoop(tabs, |tabs|, labels, clf);
      var last := if st.outcome.Success? then Complete(st.outcome.value) else Error(st.outcome.error);
      HandleMessage(cached, attempt, tabs, labels, clf)
        == Run(LoadClassifier(cached, attempt).events + [Progress(ClassifyingTabs)] + st.events + [last], true)
  {
  }

  /** Where each message sits in a run that got past loading. */
  lemma EventsLayout(pre: seq<Event>, counts: seq<Event>, last: Event)
    ensures var ev := pre + [Progress(ClassifyingTabs)] + counts + [last];
      && |ev| == |pre| + |counts| + 2
      && ev[..|pre|] == pre
      && ev[|pre|] == Progress(ClassifyingTabs)
      && ev[|pre| + 1..|ev| - 1] == counts
      && ev[|ev| - 1] == last
  {
    var ev := pre + [Progress(ClassifyingTabs)] + counts + [last];
    assert ev[..|pre|] == pre;
    assert ev[|pre| + 1..|ev| - 1] == counts;
  }

  /**
   * When the load succeeds and some classification throws, the run ends with one `error`
   * carrying the message of the first failing tab, after progress for the tabs before it,
   * and posts no `complete`.
   */
  lemma HandleMessageClassifyFailure(cached: bool, attempt: LoadAttempt, tabs: seq<Tab>, labels: seq<string>, clf: Classifier, i: nat)
    requires LoadClassifier(cached, attempt).failure.None?
    requires i < |tabs| && clf(WorkerText(tabs[i]), labels).Threw?
    requires forall j :: 0 <= j < i ==> clf(WorkerText(tabs[j]), labels).Top?
    ensures var ev := HandleMessage(cached, attempt, tabs, labels, clf).events;
      var pre := LoadClassifier(cached, attempt).events;
      && |ev| == |pre| + i + 2
      && CountsUpTo(ev[|pre| + 1..|ev| - 1], i, |tabs|)
      && ev[|ev| - 1] == Error(clf(WorkerText(tabs[i]), labels).message)
      && forall e :: e in ev ==> !e.Complete?
  {
    var decide := WorkerDecideFn(labels, clf);
    forall j | 0 <= j < i
      ensures !decide(tabs[j]).Fail?
    {
      WorkerDecideFails(labels, clf, tabs[j]);
    }
    WorkerDecideFails(labels, clf, tabs[i]);
    assert FirstFailureAt(tabs, decide, i);
    ClassifyLoopGroups(tabs, |tabs|, labels, clf);
    GroupIntoFirstFailure(tabs, decide, RecordFn(), i);
    ClassifyLoopProgressOnFailure(tabs, |tabs|, labels, clf, i);
    HandleMessageShape(cached, attempt, tabs, labels, clf);
    LoadClassifierSpec(cached, attempt);
    var st := ClassifyLoop(tabs, |tabs|, labels, clf);
    var m := clf(WorkerText(tabs[i]), labels).message;
    assert st.outcome == Failure(m);
    EventsLayout(LoadClassifier(cached, attempt).events, st.events, Error(m));
  }

  /** A failed load ends the run with one `error` and leaves no classifier cached. */
  lemma HandleMessageLoadFailure(cached: bool, attempt: LoadAttempt, tabs: seq<Tab>, labels: seq<string>, clf: Classifier)
    requires !cached && attempt.failure.Some?
    ensures var r := HandleMessage(cached, attempt, tabs, labels, clf);
      && r.events == [Progress(LoadingModel)] + DownloadEvents(attempt.downloadPercents) + [Error(attempt.failure.value)]
      && !r.cached
  {
  }
}

=== FILE: wrappers.dfy ===
/** Optional values and outcomes used throughout the model. */
module Wrappers {

  /** A value that may be absent: JavaScript's `undefined`, or a lookup that threw. */
  datatype Option<+T> = None | Some(value: T)

  /** The outcome of an operation that either completes or throws with a message. */
  datatype Result<+R, +E> = Success(value: R) | Failure(error: E)
}
